=== FILE: README.md ===
# Catalogue store of a book-sales database, in Dafny

`ORM_HW.py` keeps a small book-sales catalogue in five tables: publishers,
books (each naming a publisher), shops, stock rows (a count of one book
held by one shop) and sales (a price, a date and a count drawn from one
stock row). Every insert runs an existence test first and writes only when
the test passes. Recording a sale checks that the stock row exists and has
enough copies; if so, it decrements that count and appends the sale. The
one report, `get_publisher_data`, joins publisher → book → stock → shop →
sale. It keeps the rows whose lower-cased publisher name contains a search
pattern. At start-up the module resets the schema and inserts a fixed
catalogue of 2 publishers, 6 books, 3 shops, 10 stock rows and 10 sales.

This project models the store as one immutable `Store` value holding five
sequences. It models each insert as a pure transition `Store -> Step`. A
`Step` carries the new store and a `Notice`, the outcome `ORM_HW.py` prints
when it refuses. Ids are autoincrement values. The model has no
database-raised errors (see "Left out"), so in every store its inserts
build from the reset schema, by any calls with any arguments, a row's id
is its position plus one (`Schema.Numbered`, kept by `Seed.ApplyKeepsNumbered`
and `Seed.ReplayKeepsNumbered`).

The modules follow the structure of `ORM_HW.py`:

- `Text` — lower-casing and the substring test behind `LIKE '%p%'`.
- `Query` — "the rows a filter keeps, in table order" and "the first such row". These stand for `query(...).filter(...).all()` and `q[0]`.
- `Schema` — the five entity classes and the lookup by primary key.
- `Guards` — `check_publisher`, `check_book`, `check_shop`, `check_stok` and `check_sale`.
- `Mutations` — `add_publisher`, `add_book`, `add_shop`, `add_stock` and `add_sale`.
- `Invariants` — what the inserts keep: case-insensitively distinct names and titles, one stock row per (shop, book) pair, non-negative counts, and referential integrity.
- `Report` — `get_publisher_data`, proved equal to the join it stands for.
- `Seed` — replaying a script of inserts.
- `Startup` — the start-up script, lines 195-233, replayed end to end.

Points where the code behaves differently from what its callers might expect:

- The book test is keyed by the title alone. Its filter `id_publisher ==
  id_publisher` compares the argument with itself. So a title stored under
  one publisher blocks that title under every other publisher, and the
  invariant kept is "titles distinct across the table".
- The interactive caller lower-cases its input before searching (line 237),
  so the search is meant to ignore case. But `get_publisher_data` itself
  lower-cases only the stored name, not the pattern (line 172). The model
  keeps the pattern as given. `Report.GetPublisherDataUnfoldedPattern`
  and `Startup.StartupReportCapitalised` state the consequence: a pattern
  with a capital letter finds nothing.
- The search runs in whichever database the `DSN` setting names (line
  185), and two of its answers depend on that database. The model assumes
  a database whose SQL `lower()` folds Cyrillic capitals as well as ASCII
  ones, and whose `LIKE` compares characters exactly. PostgreSQL with a
  UTF-8 locale behaves this way. Both assumptions matter for the start-up
  lemmas:
  - `Startup.StartupReport` (seven rows for "пушкин") needs `lower()` to
    fold Cyrillic. SQLite's `lower()` folds only ASCII, so there it finds
    no rows.
  - `Startup.StartupReportCapitalised` (no rows for "Пушкин") needs a
    case-sensitive `LIKE`. MySQL's default case-insensitive collation
    would find the seven rows.
- `check_sale` returns `None` when the stock id names no row. The caller
  treats that as a refusal, so the guard is a three-way `SaleCheck`.
- `add_stock` does not check the sign of its count. The non-negative count
  invariant therefore needs a non-negative count from the caller.

## Model

| member | source | states |
|---|---|---|
| Text.Lower | ORM_HW.py:76 | `lower()` on both sides of the name comparisons at lines 76, 93 and 110 and on the stored name at line 172; `Text.LowerIsFolded` states that it is idempotent |
| Text.Contains | ORM_HW.py:172 | the `LIKE '%pattern%'` filter as a substring test; `Text.ContainsIffOccurs` states that it holds exactly when the pattern occurs at some position |
| Text.LowerIsFolded | ORM_HW.py:76 | every character of a lower-cased name is already lower case, so lower-casing twice equals lower-casing once |
| Text.ContainsIffOccurs | ORM_HW.py:172 | the substring test holds exactly when some position of the name starts an occurrence of the pattern |
| Text.ContainsEmpty | ORM_HW.py:172 | the empty pattern occurs in every name |
| Text.ContainsChars | ORM_HW.py:172 | every character of a pattern found in a name is a character of that name |
| Query.Select | ORM_HW.py:144 | the answer of `.filter(...).all()` as row positions; each names a row the filter keeps, and `Query.SelectComplete` and `Query.SelectIncreasing` state the rest |
| Query.First | ORM_HW.py:144-146 | `q[0]` of that answer, when there is one; it names a row the filter keeps, and `Query.FirstSpec` states that it is the earliest |
| Query.SelectComplete | ORM_HW.py:144 | a query's `.all()` result contains every row the filter keeps |
| Query.SelectIncreasing | ORM_HW.py:144 | a query's result lists the kept rows in table order, each at most once |
| Query.FirstSpec | ORM_HW.py:144-146 | `q[0]` is absent exactly when no row passes the filter; otherwise it passes the filter and no earlier row does |
| Query.FirstUnique | ORM_HW.py:144-146 | when exactly one row passes the filter, `q[0]` is that row |
| Schema.Store | ORM_HW.py:15-72 | the five tables as sequences of the entity rows `Publisher`, `Book`, `Shop`, `Stock` and `Sale`, each with the columns of its class |
| Schema.Publisher | ORM_HW.py:15-22 | a publisher row: autoincrement id and name |
| Schema.Book | ORM_HW.py:25-34 | a book row: id, title and the id of its publisher |
| Schema.Shop | ORM_HW.py:37-44 | a shop row: id and name |
| Schema.Stock | ORM_HW.py:47-58 | a stock row: id, shop id, book id and the number of copies held |
| Schema.Sale | ORM_HW.py:61-72 | a sale row: id, price, date, stock id and number of copies sold |
| Schema.Numbered | ORM_HW.py:18 | the autoincrement primary keys of lines 18, 28, 40, 50 and 64: every row's id is its position plus one; `Invariants.EmptyValid` states it of the reset schema, `Seed.ApplyKeepsNumbered` that every insert keeps it whatever its arguments, and `Seed.ReplayKeepsNumbered` that every script does |
| Schema.Empty | ORM_HW.py:191-193 | the schema just dropped and re-created, every table empty; `Invariants.EmptyValid` states that it satisfies every invariant |
| Schema.PublisherById | ORM_HW.py:171 | the lookup of a publisher by primary key that the join at line 171 follows; `Schema.PublisherByIdNumbered` states what it finds |
| Schema.BookById | ORM_HW.py:171 | the same lookup for books; `Schema.BookByIdNumbered` |
| Schema.ShopById | ORM_HW.py:171 | the same lookup for shops; `Schema.ShopByIdNumbered` |
| Schema.StockById | ORM_HW.py:144 | `filter(stock.id == id_stock)`, as used by the sale test and the join; `Schema.StockByIdNumbered` |
| Schema.PublisherByIdNumbered | ORM_HW.py:18 | with autoincrement ids, the publisher with id n is row n-1, and an id outside 1..size names no row |
| Schema.BookByIdNumbered | ORM_HW.py:28 | the same for books |
| Schema.ShopByIdNumbered | ORM_HW.py:40 | the same for shops |
| Schema.StockByIdNumbered | ORM_HW.py:50 | the same for stock rows |
| Guards.CheckPublisher | ORM_HW.py:75-80 | passes exactly when no stored publisher name equals the new one after both are lower-cased |
| Guards.CheckBook | ORM_HW.py:92-97 | passes exactly when no stored title, under any publisher, equals the new title after lower-casing |
| Guards.CheckShop | ORM_HW.py:109-114 | passes exactly when no stored shop name equals the new one after lower-casing |
| Guards.CheckStock | ORM_HW.py:126-131 | passes exactly when no stock row has this shop id and this book id, compared exactly |
| Guards.CheckSale | ORM_HW.py:143-153 | NoSuchStock exactly when no stock row has the id; otherwise the first such row decides: Sufficient exactly when its count covers the request, else Insufficient with its count |
| Guards.SaleCheck | ORM_HW.py:143-153 | the three results of `check_sale`: `None` for a missing stock id, `False` for too few copies with the count it prints, `True` otherwise; `Guards.CheckSale` states when each occurs |
| Guards.CheckBookIgnoresPublisher | ORM_HW.py:93 | the book test gives the same answer for every publisher argument |
| Guards.CheckSaleNumbered | ORM_HW.py:143-153 | with autoincrement ids, the sale test reads row idStock-1 and gives each of its three answers in the matching case |
| Mutations.Notice | ORM_HW.py:83-153 | what an insert reports: saved, or one of the refusals `ORM_HW.py` prints at lines 89, 106, 123, 140, 150 and 153; the `Mutations.Add*` contracts state which one each case gives |
| Mutations.AddPublisher | ORM_HW.py:83-89 | with no case-insensitive clash it appends one publisher with the next id and changes nothing else; on a clash the store is unchanged and the notice names the publisher |
| Mutations.AddBook | ORM_HW.py:100-106 | with no title clash under any publisher it appends one book with the next id; on a clash the store is unchanged |
| Mutations.AddShop | ORM_HW.py:117-123 | with no case-insensitive clash it appends one shop with the next id; otherwise the store is unchanged |
| Mutations.AddStock | ORM_HW.py:134-140 | with no row for the (shop, book) pair it appends one stock row holding the count given; otherwise the store is unchanged |
| Mutations.Decrement | ORM_HW.py:159 | the `UPDATE ... SET count = count - n` over the stock rows with the id; `Invariants.AddSaleChangesOneStock` states its effect |
| Mutations.AddSale | ORM_HW.py:156-161 | an unknown stock id or too small a count leaves the store unchanged with the matching notice; otherwise one sale with the next id is appended, every row with the id loses exactly `count` copies, the other rows and tables are unchanged |
| Invariants.EmptyValid | ORM_HW.py:191-193 | the freshly reset schema satisfies every invariant |
| Invariants.AddPublisherKeepsNamesDistinct | ORM_HW.py:75-89 | publisher names stay pairwise distinct after lower-casing |
| Invariants.AddShopKeepsNamesDistinct | ORM_HW.py:109-123 | shop names stay pairwise distinct after lower-casing |
| Invariants.AddBookKeepsTitlesDistinct | ORM_HW.py:92-106 | book titles stay pairwise distinct after lower-casing, across all publishers |
| Invariants.AddBookRefusesTitleOfOtherPublisher | ORM_HW.py:93 | a title stored under one publisher is refused under a different publisher |
| Invariants.AddStockKeepsPairsDistinct | ORM_HW.py:126-140 | at most one stock row per (shop, book) pair |
| Invariants.AddSaleKeepsCountsNonNegative | ORM_HW.py:146-159 | in a store with autoincrement ids, if all counts are non-negative before a sale, whatever the requested count, they stay non-negative after it |
| Invariants.AddSaleRefused | ORM_HW.py:143-157 | a missing stock id or an insufficient count leaves stocks and sales unchanged, with the notice for that case |
| Invariants.AddSaleChangesOneStock | ORM_HW.py:156-161 | in a store with autoincrement ids, an accepted sale of c copies from a row holding n leaves it with n-c, changes no other stock row, and appends exactly one sale with that price, date, stock id and count |
| Invariants.AddPublisherKeepsValid | ORM_HW.py:83-89 | adding a publisher keeps every invariant |
| Invariants.AddBookKeepsValid | ORM_HW.py:100-106 | adding a book whose publisher exists keeps every invariant |
| Invariants.AddShopKeepsValid | ORM_HW.py:117-123 | adding a shop keeps every invariant |
| Invariants.AddStockKeepsValid | ORM_HW.py:134-140 | adding a stock row with existing shop and book and a non-negative count keeps every invariant |
| Invariants.AddSaleKeepsValid | ORM_HW.py:156-161 | recording a sale keeps every invariant, with no condition on its arguments |
| Report.Row | ORM_HW.py:165-170 | the five selected columns: publisher name, book title, shop name, sale price and sale date |
| Report.JoinAt | ORM_HW.py:171 | the four join conditions the foreign keys give `join(book).join(stock).join(shop).join(sale)`: the sale's stock id is the stock row's id (line 67), the stock's book id is the book's id (line 52), the stock's shop id is the shop's id (line 51), and the book's publisher id is the publisher's id (line 30) |
| Report.Joined | ORM_HW.py:165-171 | the inner join: sale j joins to the row selected from some publisher, book, stock and shop rows meeting those conditions; `Report.ResolveIffJoined` states that `Report.Resolve` computes it |
| Report.Resolve | ORM_HW.py:165-171 | the joined row of one sale, found along its foreign keys; `Report.ResolveSound` and `Report.ResolveIffJoined` state that it is the inner join |
| Report.GetPublisherData | ORM_HW.py:164-174 | the report, one row per sale in sale-id order; `Report.GetPublisherDataMultiplicity` states how often each row occurs, `Report.GetPublisherDataRows` which rows occur and `Report.GetPublisherDataCount` their number |
| Report.Matches | ORM_HW.py:172 | the filter `lower(publisher.name) LIKE '%pattern%'` on one joined row; `Report.RowsForMatch` states that every reported row passes it |
| Report.RowOf | ORM_HW.py:165-173 | the row one sale contributes, if any; `Report.RowOfContents` and `Report.RowOfCount` state that it is its matching joined row, at most once |
| Report.RowsFor | ORM_HW.py:164-174 | the rows a run of sales contributes, in order; `Report.RowsForPrefix` and `Report.RowsForPrefixMultiplicity` state its contents |
| Report.ResolveSound | ORM_HW.py:165-171 | the row a sale resolves to is built from real publisher, book, stock and shop rows linked by their keys |
| Report.ResolveIffJoined | ORM_HW.py:165-171 | in a store with autoincrement ids, a sale resolves to a row exactly when the inner join links it to that row |
| Report.ReachesIffResolves | ORM_HW.py:165-173 | a sale reaches the filtered join exactly when it resolves to a row whose publisher name matches |
| Report.RowOfContents | ORM_HW.py:165-173 | a sale contributes a row exactly when it resolves to it and the row matches, and never more than one |
| Report.GetPublisherDataMultiplicity | ORM_HW.py:164-174 | each row occurs in the report exactly as often as there are sales that join to it, when its lower-cased publisher name contains the pattern: the report is the filtered join as a multiset |
| Report.RowsForPrefixMultiplicity | ORM_HW.py:164-174 | the same count among the first n sales, the induction behind the multiset statement |
| Report.RowOfCount | ORM_HW.py:165-173 | one sale contributes a row once when it resolves to it and the row matches, otherwise not at all |
| Report.GetPublisherDataRows | ORM_HW.py:164-174 | a row is in the report exactly when some sale joins to it and its lower-cased publisher name contains the pattern |
| Report.GetPublisherDataCount | ORM_HW.py:164-174 | the report has exactly one row per sale that reaches a matching publisher; rows without sales contribute none |
| Report.RowsForMatch | ORM_HW.py:172 | every row of the report has a matching publisher name |
| Report.GetPublisherDataUnfoldedPattern | ORM_HW.py:172 | a pattern holding a character that lower-casing changes gives an empty report |
| Report.GetPublisherDataEmptyPattern | ORM_HW.py:164-174 | in a valid store the empty pattern gives one row per sale |
| Report.ResolveNumbered | ORM_HW.py:165-171 | in a store with autoincrement ids, a sale whose keys are in range resolves to the rows its ids name by position |
| Report.ResolveAgrees | ORM_HW.py:165-171 | a sale resolves to the same row in any larger store that keeps the earlier rows' names and links |
| Report.AddSaleExtendsReport | ORM_HW.py:156-174 | an accepted sale appends to the report exactly its joined row when that row matches, and keeps the earlier rows |
| Report.CatalogueInsertKeepsReport | ORM_HW.py:164-174 | a store that only grows the catalogue tables and keeps the sales gives the same report |
| Report.AddPublisherKeepsReport | ORM_HW.py:83-89 | adding a publisher leaves every report unchanged |
| Report.AddBookKeepsReport | ORM_HW.py:100-106 | adding a book, whatever publisher id it carries, leaves every report unchanged |
| Report.AddShopKeepsReport | ORM_HW.py:117-123 | adding a shop leaves every report unchanged |
| Report.AddStockKeepsReport | ORM_HW.py:134-140 | adding a stock row, whatever its ids and count, leaves every report unchanged |
| Seed.Apply | ORM_HW.py:83-161 | one call of an insert, by the table it writes; `Seed.ApplyKeepsValid` states that it keeps the invariants |
| Seed.Replay | ORM_HW.py:195-233 | the start-up calls run in order, each refused insert leaving the store as it was; `Seed.ReplayAppend` and `Seed.ReplayKeepsValid` state its properties |
| Seed.ReplayAppend | ORM_HW.py:195-233 | running two scripts in turn equals running their concatenation |
| Seed.ApplyKeepsValid | ORM_HW.py:83-161 | every admissible insert keeps every invariant |
| Seed.ReplayKeepsValid | ORM_HW.py:191-233 | replaying an admissible script from a valid store gives a valid store |
| Seed.ApplyKeepsNumbered | ORM_HW.py:83-161 | every insert, admissible or not, keeps each row's id equal to its position plus one |
| Seed.AddSaleKeepsNumbered | ORM_HW.py:156-161 | a sale, accepted or refused, keeps each row's id equal to its position plus one |
| Seed.ReplayKeepsNumbered | ORM_HW.py:191-233 | any script replayed from a store with autoincrement ids leaves one with autoincrement ids |
| Seed.ReplayTrace | ORM_HW.py:195-233 | a script walks through any trace of states that its inserts produce one by one |
| Startup.PublisherScript | ORM_HW.py:195-196 | the two `add_publisher` calls |
| Startup.BookScript | ORM_HW.py:198-204 | the six `add_book` calls |
| Startup.ShopScript | ORM_HW.py:206-208 | the three `add_shop` calls |
| Startup.StockScript | ORM_HW.py:210-222 | the ten `add_stock` calls |
| Startup.SaleScript | ORM_HW.py:224-233 | the ten `add_sale` calls, with the dates as a parameter |
| Startup.StartupScript | ORM_HW.py:195-233 | all start-up calls in order; `Startup.StartupReplay` states the store they leave |
| Startup.StartupReplay | ORM_HW.py:191-233 | replaying the start-up script on the reset schema accepts every insert and leaves the seed catalogue with the ten sales applied |
| Startup.StartupValid | ORM_HW.py:195-233 | the store after start-up satisfies every invariant |
| Startup.StartupLinked | ORM_HW.py:195-233 | after start-up, ids are positions plus one and every foreign key names an existing row |
| Startup.StartupCounts | ORM_HW.py:210-233 | start-up leaves 2 publishers, 6 books, 3 shops, 10 stock rows and 10 sales; stock 1 holds 9 copies, stock 5 none, and the ten counts are 9,1,5,3,0,6,1,3,6,8 |
| Startup.SeedPublishersMatch | ORM_HW.py:195-196 | Pushkin's lower-cased name contains "пушкин"; Tolstoy's does not |
| Startup.StartupResolve | ORM_HW.py:224-233 | sale i+1 of the start-up store joins to its book, shop and publisher: seven of Pushkin's books, then three of Tolstoy's |
| Startup.StartupRowOf | ORM_HW.py:164-174 | each start-up sale contributes its row to the "пушкин" report exactly when it sells a Pushkin book |
| Startup.StartupReport | ORM_HW.py:164-233 | searching the start-up store for "пушкин" gives exactly the seven rows of Pushkin's sales, in sale order |
| Startup.StartupReportCapitalised | ORM_HW.py:172 | searching the start-up store for "Пушкин" gives no rows, because the pattern is not lower-cased |

## Left out

- The database engine, session, commit, schema creation and removal, and `.env`/DSN loading (`ORM_HW.py:1-12`, `177-193`, `249`) are I/O plumbing. The reset is modelled as the empty store.
- Foreign keys are enforced by the database, not by the module. The transitions do not check them. Lemmas that need them take them as preconditions; see the lines below.
- Invariants.AddBookKeepsValid: requires the new book's publisher id to name an existing publisher, because the database enforces that key and the module does not.
- Invariants.AddStockKeepsValid: requires the shop and book ids to exist (database foreign keys) and a non-negative count, because `add_stock` stores any count.
- Seed.ApplyKeepsValid: requires each command to be admissible, meaning its foreign keys exist and a stock count is not negative, for the reasons above.
- Seed.ReplayKeepsValid: requires every command of the script to be admissible, as for `Seed.ApplyKeepsValid`.
- Errors raised by the database are not modelled. `sq.Integer` columns (ids and counts, lines 18, 55 and 68) are 32-bit, and the model's integers are unbounded. So an insert or a decrement at line 159 that leaves that range, which the database would reject, succeeds in the model. The same holds for a dangling foreign key and for a string longer than the `String(length=50)` or `String(length=30)` limit. A rejected insert can still use up an autoincrement id. The "id is position plus one" invariant therefore describes runs without such failures.
- Row order of the report: the query at lines 165-173 has no `order_by`, so the database may return its rows in any order. The model fixes sale-id order. `Report.GetPublisherDataMultiplicity` is the order-free statement: it fixes the report as a multiset of rows. `Report.GetPublisherDataRows` and `Report.GetPublisherDataCount` are consequences of it for membership and length. The sequence equalities of `Startup.StartupReport` and `Report.AddSaleExtendsReport` hold for the model's chosen order.
- `LIKE` wildcards and escapes: `%`, `_` and the backslash (PostgreSQL's default escape character) inside the pattern are matched literally, as plain substring search.
- The case table lower-cases only ASCII A–Z and the Cyrillic capitals U+0400..U+042F, which is enough for the stored data. Every other character is left unchanged, for example the Latin-1 capitals À..Þ (U+00C0..U+00DE) and Ґ (U+0490), which PostgreSQL's `lower()` and Python's `str.lower()` fold. The database is assumed to agree with the table on the characters that occur in the stored names and patterns, and to compare exactly in `LIKE`, as PostgreSQL with a UTF-8 locale does. Other databases are not modelled: SQLite's ASCII-only `lower()` and MySQL's case-insensitive default collation give different answers for the start-up search.
- `price` is a SQL float; it is modelled as an integer because it is only stored and returned.
- `date_sale` defaults to `datetime.now`. The clock is a parameter: every sale takes its date from the caller, and the start-up lemmas take the ten dates as an argument.
- The `__main__` prompt, the date formatting and the table printing (`ORM_HW.py:236-247`) are console I/O. The printed refusal messages are kept only as the `Notice` tags.
- `__str__` methods of the entity classes are presentation only.
- Atomicity of "decrement plus insert" is a property of the database transaction. In the model the sale is one pure step, so it is atomic by construction.

=== FILE: guards.dfy ===
/**
  The existence tests the catalogue runs before every insert. Each one is a
  read-only query whose answer decides whether the insert goes ahead: a
  guard passes (`true`) when the query finds no row.
 */
module Guards {
  import opened Text
  import opened Query
  import opened Schema

  /** No stored publisher name equals `name` once both are lower-cased. */
  function CheckPublisher(st: Store, name: string): (ok: bool)
    ensures ok <==> forall i :: 0 <= i < |st.publishers| ==> Lower(st.publishers[i].name) != Lower(name)
  {
    FirstSpec(st.publishers, (p: Publisher) => Lower(p.name) == Lower(name));
    First(st.publishers, (p: Publisher) => Lower(p.name) == Lower(name)).None?
  }

  /** The book test. Its second filter term compares the `idPublisher`
      argument with itself, which always holds, so the test is keyed by the
      title alone: a title already stored under any publisher blocks the
      insert, and the publisher argument has no influence on the answer. */
  function CheckBook(st: Store, title: string, idPublisher: Id): (ok: bool)
    ensures ok <==> forall i :: 0 <= i < |st.books| ==> Lower(st.books[i].title) != Lower(title)
  {
    FirstSpec(st.books, (b: Book) => Lower(b.title) == Lower(title) && idPublisher == idPublisher);
    First(st.books, (b: Book) => Lower(b.title) == Lower(title) && idPublisher == idPublisher).None?
  }

  /** No stored shop name equals `name` once both are lower-cased. */
  function CheckShop(st: Store, name: string): (ok: bool)
    ensures ok <==> forall i :: 0 <= i < |st.shops| ==> Lower(st.shops[i].name) != Lower(name)
  {
    FirstSpec(st.shops, (h: Shop) => Lower(h.name) == Lower(name));
    First(st.shops, (h: Shop) => Lower(h.name) == Lower(name)).None?
  }

  /** No stock row links this exact shop id to this exact book id. */
  function CheckStock(st: Store, idShop: Id, idBook: Id): (ok: bool)
    ensures ok <==> forall i :: 0 <= i < |st.stocks| ==>
                      st.stocks[i].idShop != idShop || st.stocks[i].idBook != idBook
  {
    FirstSpec(st.stocks, (s: Stock) => s.idShop == idShop && s.idBook == idBook);
    First(st.stocks, (s: Stock) => s.idShop == idShop && s.idBook == idBook).None?
  }

  /** The three answers of the sale test: the stock id names no row (the
      Python `check_sale` then returns `None`, which `add_sale` reads as a
      refusal), the
      row holds fewer copies than requested, or the sale may go ahead. */
  datatype SaleCheck = NoSuchStock | Insufficient(available: int) | Sufficient

  /** Looks up the first stock row with id `idStock` and compares its count
      with the requested `count`. */
  function CheckSale(st: Store, idStock: Id, count: int): (g: SaleCheck)
    ensures g.NoSuchStock? <==> forall i :: 0 <= i < |st.stocks| ==> st.stocks[i].id != idStock
    ensures forall i :: 0 <= i < |st.stocks| && st.stocks[i].id == idStock
                        && (forall j :: 0 <= j < i ==> st.stocks[j].id != idStock) ==>
              && (g.Sufficient? <==> count <= st.stocks[i].count)
              && (g.Insufficient? ==> g.available == st.stocks[i].count)
  {
    FirstSpec(st.stocks, (s: Stock) => s.id == idStock);
    match StockById(st, idStock)
    case None => NoSuchStock
    case Some(k) =>
      if st.stocks[k].count >= count then Sufficient
      else Insufficient(st.stocks[k].count)
  }

  /** The book test ignores its publisher argument. */
  lemma CheckBookIgnoresPublisher(st: Store, title: string, a: Id, b: Id)
    ensures CheckBook(st, title, a) == CheckBook(st, title, b)
  {
  }

  /** In a numbered store the sale test reads the row at position `idStock - 1`. */
  lemma CheckSaleNumbered(st: Store, idStock: Id, count: int)
    requires Numbered(st)
    ensures !(1 <= idStock <= |st.stocks|) ==> CheckSale(st, idStock, count) == NoSuchStock
    ensures 1 <= idStock <= |st.stocks| && count <= st.stocks[idStock - 1].count
            ==> CheckSale(st, idStock, count) == Sufficient
    ensures 1 <= idStock <= |st.stocks| && st.stocks[idStock - 1].count < count
            ==> CheckSale(st, idStock, count) == Insufficient(st.stocks[idStock - 1].count)
  {
    StockByIdNumbered(st, idStock);
  }
}

=== FILE: invariants.dfy ===
/**
  Invariants of the catalogue store and the proofs that the inserts keep
  them.

  The name and pair invariants hold because of the guards alone. The
  non-negative stock invariant also needs the sale guard, and, since
  `AddStock` stores whatever count it is given, a non-negative count from
  the caller. Referential integrity is enforced by the database, not by the
  catalogue code, so its preservation lemmas take the references of the new
  row as a precondition.
 */
module Invariants {
  import opened Text
  import opened Schema
  import opened Mutations

  predicate PublisherNamesDistinct(pubs: seq<Publisher>) {
    forall i, j :: 0 <= i < j < |pubs| ==> Lower(pubs[i].name) != Lower(pubs[j].name)
  }

  /** Titles are distinct across the whole table, not only per publisher,
      because the book guard is keyed by the title alone. */
  predicate BookTitlesDistinct(books: seq<Book>) {
    forall i, j :: 0 <= i < j < |books| ==> Lower(books[i].title) != Lower(books[j].title)
  }

  predicate ShopNamesDistinct(shops: seq<Shop>) {
    forall i, j :: 0 <= i < j < |shops| ==> Lower(shops[i].name) != Lower(shops[j].name)
  }

  /** At most one stock row per (shop, book) pair. */
  predicate StockPairsDistinct(stocks: seq<Stock>) {
    forall i, j :: 0 <= i < j < |stocks| ==>
      stocks[i].idShop != stocks[j].idShop || stocks[i].idBook != stocks[j].idBook
  }

  predicate CountsNonNegative(stocks: seq<Stock>) {
    forall i :: 0 <= i < |stocks| ==> stocks[i].count >= 0
  }

  /** An id names an existing row of a numbered table of `n` rows. */
  predicate Names(n: nat, id: Id) {
    1 <= id <= n
  }

  /** Every foreign key names an existing row. */
  predicate Referential(st: Store) {
    && (forall i :: 0 <= i < |st.books| ==> Names(|st.publishers|, st.books[i].idPublisher))
    && (forall i :: 0 <= i < |st.stocks| ==> Names(|st.shops|, st.stocks[i].idShop))
    && (forall i :: 0 <= i < |st.stocks| ==> Names(|st.books|, st.stocks[i].idBook))
    && (forall i :: 0 <= i < |st.sales| ==> Names(|st.stocks|, st.sales[i].idStock))
  }

  predicate Valid(st: Store) {
    && Numbered(st)
    && PublisherNamesDistinct(st.publishers)
    && BookTitlesDistinct(st.books)
    && ShopNamesDistinct(st.shops)
    && StockPairsDistinct(st.stocks)
    && CountsNonNegative(st.stocks)
    && Referential(st)
  }

  lemma EmptyValid()
    ensures Valid(Empty)
  {
  }

  lemma AddPublisherKeepsNamesDistinct(st: Store, name: string)
    requires PublisherNamesDistinct(st.publishers)
    ensures PublisherNamesDistinct(AddPublisher(st, name).store.publishers)
  {
  }

  lemma AddShopKeepsNamesDistinct(st: Store, name: string)
    requires ShopNamesDistinct(st.shops)
    ensures ShopNamesDistinct(AddShop(st, name).store.shops)
  {
  }

  lemma AddBookKeepsTitlesDistinct(st: Store, title: string, idPublisher: Id)
    requires BookTitlesDistinct(st.books)
    ensures BookTitlesDistinct(AddBook(st, title, idPublisher).store.books)
  {
  }

  /** A title stored under one publisher blocks the same title (up to case)
      under every other publisher. */
  lemma AddBookRefusesTitleOfOtherPublisher(st: Store, title: string, idPublisher: Id, i: int)
    requires 0 <= i < |st.books| && Lower(st.books[i].title) == Lower(title)
    requires st.books[i].idPublisher != idPublisher
    ensures AddBook(st, title, idPublisher) == Step(st, BookExists(title))
  {
  }

  lemma AddStockKeepsPairsDistinct(st: Store, idShop: Id, idBook: Id, count: int)
    requires StockPairsDistinct(st.stocks)
    ensures StockPairsDistinct(AddStock(st, idShop, idBook, count).store.stocks)
  {
  }

  /** The sale guard keeps every count at or above zero, whatever the sign
      of the requested count. */
  lemma AddSaleKeepsCountsNonNegative(st: Store, price: Price, date: Timestamp, idStock: Id, count: int)
    requires Numbered(st) && CountsNonNegative(st.stocks)
    ensures CountsNonNegative(AddSale(st, price, date, idStock, count).store.stocks)
  {
    var r := AddSale(st, price, date, idStock, count);
    if 1 <= idStock <= |st.stocks| {
      assert FirstStockWithId(st.stocks, idStock, idStock - 1);
    }
  }

  /** A refused sale: the id names no stock row, or that row holds fewer
      copies than requested. Neither stocks nor sales change. */
  lemma AddSaleRefused(st: Store, price: Price, date: Timestamp, idStock: Id, count: int)
    requires Numbered(st)
    requires !(1 <= idStock <= |st.stocks|) || st.stocks[idStock - 1].count < count
    ensures AddSale(st, price, date, idStock, count).store == st
    ensures AddSale(st, price, date, idStock, count).notice
         == if 1 <= idStock <= |st.stocks| then NotEnoughStock(st.stocks[idStock - 1].count)
            else NoStock(idStock)
  {
    if 1 <= idStock <= |st.stocks| {
      assert FirstStockWithId(st.stocks, idStock, idStock - 1);
    }
  }

  /** An accepted sale of `count` copies from a stock row holding `n` copies
      leaves that row with `n - count` copies, changes no other stock row,
      and appends exactly one sale carrying the price, date, stock id and
      count. */
  lemma AddSaleChangesOneStock(st: Store, price: Price, date: Timestamp, idStock: Id, count: int)
    requires Numbered(st)
    requires 1 <= idStock <= |st.stocks| && count <= st.stocks[idStock - 1].count
    ensures var r := AddSale(st, price, date, idStock, count);
            && r.notice == Saved
            && |r.store.stocks| == |st.stocks|
            && r.store.stocks[idStock - 1]
               == st.stocks[idStock - 1].(count := st.stocks[idStock - 1].count - count)
            && (forall j :: 0 <= j < |st.stocks| && j != idStock - 1 ==> r.store.stocks[j] == st.stocks[j])
            && r.store.sales == st.sales + [Sale(|st.sales| + 1, price, date, idStock, count)]
            && r.store.(stocks := st.stocks, sales := st.sales) == st
  {
    assert FirstStockWithId(st.stocks, idStock, idStock - 1);
  }

  lemma AddPublisherKeepsValid(st: Store, name: string)
    requires Valid(st)
    ensures Valid(AddPublisher(st, name).store)
  {
    AddPublisherKeepsNamesDistinct(st, name);
  }

  lemma AddBookKeepsValid(st: Store, title: string, idPublisher: Id)
    requires Valid(st) && Names(|st.publishers|, idPublisher)
    ensures Valid(AddBook(st, title, idPublisher).store)
  {
    AddBookKeepsTitlesDistinct(st, title, idPublisher);
  }

  lemma AddShopKeepsValid(st: Store, name: string)
    requires Valid(st)
    ensures Valid(AddShop(st, name).store)
  {
    AddShopKeepsNamesDistinct(st, name);
  }

  lemma AddStockKeepsValid(st: Store, idShop: Id, idBook: Id, count: int)
    requires Valid(st) && Names(|st.shops|, idShop) && Names(|st.books|, idBook) && count >= 0
    ensures Valid(AddStock(st, idShop, idBook, count).store)
  {
    AddStockKeepsPairsDistinct(st, idShop, idBook, count);
  }

  /** A sale needs no precondition beyond validity: the guard refuses an id
      that names no stock row, so the new sale's reference always holds. */
  lemma AddSaleKeepsValid(st: Store, price: Price, date: Timestamp, idStock: Id, count: int)
    requires Valid(st)
    ensures Valid(AddSale(st, price, date, idStock, count).store)
  {
    AddSaleKeepsCountsNonNegative(st, price, date, idStock, count);
    if 1 <= idStock <= |st.stocks| && count <= st.stocks[idStock - 1].count {
      AddSaleChangesOneStock(st, price, date, idStock, count);
      var k := idStock - 1;
      var r := AddSale(st, price, date, idStock, count).store;
      var drawn := st.stocks[k := st.stocks[k].(count := st.stocks[k].count - count)];
      assert r.stocks == drawn;
      assert r == st.(stocks := drawn, sales := st.sales + [Sale(|st.sales| + 1, price, date, idStock, count)]);
      DrawKeepsValid(st, k, count, Sale(|st.sales| + 1, price, date, idStock, count));
    } else {
      AddSaleRefused(st, price, date, idStock, count);
    }
  }

  /** Drawing copies from one stock row and logging the sale keeps the
      invariants, provided the row keeps a non-negative count and the sale
      is numbered next and names an existing stock row. */
  lemma DrawKeepsValid(st: Store, k: nat, n: int, sold: Sale)
    requires Valid(st) && k < |st.stocks| && n <= st.stocks[k].count
    requires sold.id == |st.sales| + 1 && Names(|st.stocks|, sold.idStock)
    ensures Valid(st.(stocks := st.stocks[k := st.stocks[k].(count := st.stocks[k].count - n)],
                      sales := st.sales + [sold]))
  {
  }
}

=== FILE: mutations.dfy ===
/**
  The catalogue's inserts. Each one runs its guard; when the guard passes it
  appends one row whose id is the next autoincrement value, otherwise it
  leaves the store as it was and reports why. Recording a sale also
  decrements the stock it draws on, in the same step as the sale row is
  appended.
 */
module Mutations {
  import opened Text
  import opened Schema
  import opened Guards

  /** What an insert tells its caller: the row was saved, or the notice
      `ORM_HW.py` prints instead of writing. */
  datatype Notice =
    | Saved
    | PublisherExists(name: string)
    | BookExists(title: string)
    | ShopExists(name: string)
    | StockExists
    | NotEnoughStock(available: int)
    | NoStock(idStock: Id)

  datatype Step = Step(store: Store, notice: Notice)

  function AddPublisher(st: Store, name: string): (r: Step)
    ensures (forall i :: 0 <= i < |st.publishers| ==> Lower(st.publishers[i].name) != Lower(name)) ==>
              && r.notice == Saved
              && r.store.publishers == st.publishers + [Publisher(|st.publishers| + 1, name)]
              && r.store.(publishers := st.publishers) == st
    ensures (exists i :: 0 <= i < |st.publishers| && Lower(st.publishers[i].name) == Lower(name)) ==>
              r == Step(st, PublisherExists(name))
  {
    if CheckPublisher(st, name) then
      Step(st.(publishers := st.publishers + [Publisher(|st.publishers| + 1, name)]), Saved)
    else
      Step(st, PublisherExists(name))
  }

  /** Refuses a title stored under any publisher (see `CheckBook`). */
  function AddBook(st: Store, title: string, idPublisher: Id): (r: Step)
    ensures (forall i :: 0 <= i < |st.books| ==> Lower(st.books[i].title) != Lower(title)) ==>
              && r.notice == Saved
              && r.store.books == st.books + [Book(|st.books| + 1, title, idPublisher)]
              && r.store.(books := st.books) == st
    ensures (exists i :: 0 <= i < |st.books| && Lower(st.books[i].title) == Lower(title)) ==>
              r == Step(st, BookExists(title))
  {
    if CheckBook(st, title, idPublisher) then
      Step(st.(books := st.books + [Book(|st.books| + 1, title, idPublisher)]), Saved)
    else
      Step(st, BookExists(title))
  }

  function AddShop(st: Store, name: string): (r: Step)
    ensures (forall i :: 0 <= i < |st.shops| ==> Lower(st.shops[i].name) != Lower(name)) ==>
              && r.notice == Saved
              && r.store.shops == st.shops + [Shop(|st.shops| + 1, name)]
              && r.store.(shops := st.shops) == st
    ensures (exists i :: 0 <= i < |st.shops| && Lower(st.shops[i].name) == Lower(name)) ==>
              r == Step(st, ShopExists(name))
  {
    if CheckShop(st, name) then
      Step(st.(shops := st.shops + [Shop(|st.shops| + 1, name)]), Saved)
    else
      Step(st, ShopExists(name))
  }

  /** The count is stored as given; the Python `add_stock` does not check its sign. */
  function AddStock(st: Store, idShop: Id, idBook: Id, count: int): (r: Step)
    ensures (forall i :: 0 <= i < |st.stocks| ==>
               st.stocks[i].idShop != idShop || st.stocks[i].idBook != idBook) ==>
              && r.notice == Saved
              && r.store.stocks == st.stocks + [Stock(|st.stocks| + 1, idShop, idBook, count)]
              && r.store.(stocks := st.stocks) == st
    ensures (exists i :: 0 <= i < |st.stocks| &&
               st.stocks[i].idShop == idShop && st.stocks[i].idBook == idBook) ==>
              r == Step(st, StockExists)
  {
    if CheckStock(st, idShop, idBook) then
      Step(st.(stocks := st.stocks + [Stock(|st.stocks| + 1, idShop, idBook, count)]), Saved)
    else
      Step(st, StockExists)
  }

  /** The update `count = count - n` applied to every stock row whose id is `id`. */
  function Decrement(stocks: seq<Stock>, id: Id, n: int): seq<Stock> {
    seq(|stocks|, i requires 0 <= i < |stocks| =>
      if stocks[i].id == id then stocks[i].(count := stocks[i].count - n) else stocks[i])
  }

  /** The first stock row carrying id `id` sits at position `i`. */
  ghost predicate FirstStockWithId(stocks: seq<Stock>, id: Id, i: int) {
    && 0 <= i < |stocks|
    && stocks[i].id == id
    && forall j :: 0 <= j < i ==> stocks[j].id != id
  }

  /** Records a sale of `count` copies from stock `idStock`: refused when no
      stock row has that id or when the first such row holds fewer than
      `count` copies; otherwise the stock rows with that id lose `count`
      copies and one sale row is appended. */
  function AddSale(st: Store, price: Price, date: Timestamp, idStock: Id, count: int): (r: Step)
    ensures (forall i :: 0 <= i < |st.stocks| ==> st.stocks[i].id != idStock) ==>
              r == Step(st, NoStock(idStock))
    ensures forall i :: FirstStockWithId(st.stocks, idStock, i) && st.stocks[i].count < count ==>
              r == Step(st, NotEnoughStock(st.stocks[i].count))
    ensures forall i :: FirstStockWithId(st.stocks, idStock, i) && count <= st.stocks[i].count ==>
              && r.notice == Saved
              && r.store.sales == st.sales + [Sale(|st.sales| + 1, price, date, idStock, count)]
              && |r.store.stocks| == |st.stocks|
              && (forall j :: 0 <= j < |st.stocks| ==>
                    r.store.stocks[j] == if st.stocks[j].id == idStock
                                         then st.stocks[j].(count := st.stocks[j].count - count)
                                         else st.stocks[j])
              && r.store.(stocks := st.stocks, sales := st.sales) == st
  {
    match CheckSale(st, idStock, count)
    case NoSuchStock => Step(st, NoStock(idStock))
    case Insufficient(available) => Step(st, NotEnoughStock(available))
    case Sufficient =>
      var sold := Sale(|st.sales| + 1, price, date, idStock, count);
      Step(st.(stocks := Decrement(st.stocks, idStock, count), sales := st.sales + [sold]), Saved)
  }
}

=== FILE: query.dfy ===
/**
  The two shapes of table query the catalogue issues:
  `session.query(T).filter(cond).all()`, which lists the rows of a table that
  satisfy a condition, and taking the first of those rows. A table is a
  sequence of rows in insertion order; a query answer is the list of the
  matching rows' positions in that order.
 */
module Query {

  datatype Option<T> = None | Some(value: T)

  /** The positions of the rows satisfying `keep`, in table order. Every
      position it lists is a matching one; `SelectComplete` and
      `SelectIncreasing` add that it misses none and lists them in order,
      which together determine the answer uniquely. */
  function Select<T>(rows: seq<T>, keep: T -> bool): (q: seq<nat>)
    ensures forall k :: 0 <= k < |q| ==> q[k] < |rows| && keep(rows[q[k]])
    decreases |rows|
  {
    if |rows| == 0 then []
    else
      var front := Select(rows[..|rows| - 1], keep);
      if keep(rows[|rows| - 1]) then front + [|rows| - 1] else front
  }

  /** No matching row is missing from the answer. */
  lemma {:induction false} SelectComplete<T>(rows: seq<T>, keep: T -> bool, i: int)
    requires 0 <= i < |rows| && keep(rows[i])
    ensures i in Select(rows, keep)
    decreases |rows|
  {
    if i < |rows| - 1 {
      var front := rows[..|rows| - 1];
      assert front[i] == rows[i];
      SelectComplete(front, keep, i);
    }
  }

  /** The answer lists positions in strictly increasing order. */
  lemma {:induction false} SelectIncreasing<T>(rows: seq<T>, keep: T -> bool)
    ensures forall k, l :: 0 <= k < l < |Select(rows, keep)| ==> Select(rows, keep)[k] < Select(rows, keep)[l]
    decreases |rows|
  {
    if |rows| > 0 {
      var prefix := rows[..|rows| - 1];
      SelectIncreasing(prefix, keep);
      var front := Select(prefix, keep);
      if keep(rows[|rows| - 1]) {
        var q := front + [|rows| - 1];
        forall k, l | 0 <= k < l < |q|
          ensures q[k] < q[l]
        {
          if l == |front| {
            assert q[k] == front[k] && q[l] == |rows| - 1;
          } else {
            assert q[k] == front[k] && q[l] == front[l];
          }
        }
        assert Select(rows, keep) == q;
      } else {
        assert Select(rows, keep) == front;
      }
    }
  }

  /** The first row satisfying `keep`: what `q[0]` of a non-empty answer is.
      `FirstSpec` states that no row before it matches and that there is
      none exactly when no row matches. */
  function First<T>(rows: seq<T>, keep: T -> bool): (r: Option<nat>)
    ensures r.Some? ==> r.value < |rows| && keep(rows[r.value])
  {
    var q := Select(rows, keep);
    if |q| == 0 then None else Some(q[0])
  }

  lemma FirstSpec<T>(rows: seq<T>, keep: T -> bool)
    ensures First(rows, keep).None? <==> forall i {:trigger rows[i]} :: 0 <= i < |rows| ==> !keep(rows[i])
    ensures First(rows, keep).Some? ==>
              forall j {:trigger rows[j]} :: 0 <= j < First(rows, keep).value ==> !keep(rows[j])
  {
    var q := Select(rows, keep);
    SelectIncreasing(rows, keep);
    forall i | 0 <= i < |rows| && keep(rows[i])
      ensures |q| > 0 && q[0] <= i
    {
      SelectComplete(rows, keep, i);
      var k :| 0 <= k < |q| && q[k] == i;
      assert k == 0 || q[0] < q[k];
    }
  }

  /** When exactly one row satisfies `keep`, the first match is that row. */
  lemma FirstUnique<T>(rows: seq<T>, keep: T -> bool, i: nat)
    requires i < |rows| && keep(rows[i])
    requires forall j :: 0 <= j < |rows| && j != i ==> !keep(rows[j])
    ensures First(rows, keep) == Some(i)
  {
    FirstSpec(rows, keep);
  }
}

=== FILE: report.dfy ===
/**
  The sales report: the inner join publisher -> book -> stock -> shop ->
  sale, keeping the rows whose lower-cased publisher name contains the
  search pattern. Only the stored name is lower-cased; the pattern is used
  as given.

  `GetPublisherData` walks the sales in id order and resolves each one
  along its foreign keys. `Joined` is the join itself, stated as the
  existence of matching rows in the four other tables; the lemmas below
  show that the two agree, row for row and sale for sale.
 */
module Report {
  import opened Text
  import opened Query
  import opened Schema
  import opened Mutations
  import opened Invariants

  /** One result row: publisher name, book title, shop name, price, date. */
  datatype Row = Row(publisherName: string, title: string, shopName: string, price: Price, dateSale: Timestamp)

  /** The row a sale joins to, if its stock, the stock's book and shop, and
      the book's publisher all exist. */
  function Resolve(st: Store, s: Sale): Option<Row> {
    match StockById(st, s.idStock)
    case None => None
    case Some(k) =>
      match BookById(st, st.stocks[k].idBook)
      case None => None
      case Some(b) =>
        match ShopById(st, st.stocks[k].idShop)
        case None => None
        case Some(h) =>
          match PublisherById(st, st.books[b].idPublisher)
          case None => None
          case Some(a) =>
            Some(Row(st.publishers[a].name, st.books[b].title, st.shops[h].name, s.price, s.dateSale))
  }

  /** Resolution once the four lookups are known. */
  lemma ResolveVia(st: Store, s: Sale, k: int, b: int, h: int, a: int)
    requires 0 <= k < |st.stocks| && StockById(st, s.idStock) == Some(k)
    requires 0 <= b < |st.books| && BookById(st, st.stocks[k].idBook) == Some(b)
    requires 0 <= h < |st.shops| && ShopById(st, st.stocks[k].idShop) == Some(h)
    requires 0 <= a < |st.publishers| && PublisherById(st, st.books[b].idPublisher) == Some(a)
    ensures Resolve(st, s) == Some(Row(st.publishers[a].name, st.books[b].title, st.shops[h].name, s.price, s.dateSale))
  {
  }

  /** The filter: the lower-cased publisher name contains the pattern. */
  predicate Matches(row: Row, pattern: string) {
    Contains(Lower(row.publisherName), pattern)
  }

  /** The row one sale contributes: its joined row, if it has one and it matches. */
  function RowOf(st: Store, pattern: string, s: Sale): seq<Row> {
    match Resolve(st, s)
    case Some(row) => if Matches(row, pattern) then [row] else []
    case None => []
  }

  /** The rows contributed by a sequence of sales, in order. */
  function RowsFor(st: Store, pattern: string, sales: seq<Sale>): seq<Row>
    decreases |sales|
  {
    if |sales| == 0 then []
    else RowsFor(st, pattern, sales[..|sales| - 1]) + RowOf(st, pattern, sales[|sales| - 1])
  }

  /** The report for a search pattern, one row per joined sale, in sale order. */
  function GetPublisherData(st: Store, pattern: string): seq<Row> {
    RowsFor(st, pattern, st.sales)
  }

  /** Rows `a`, `b`, `k`, `h` of the publisher, book, stock and shop tables
      join with sale `j`. */
  ghost predicate JoinAt(st: Store, j: int, a: int, b: int, k: int, h: int) {
    && 0 <= j < |st.sales|
    && 0 <= a < |st.publishers|
    && 0 <= b < |st.books|
    && 0 <= k < |st.stocks|
    && 0 <= h < |st.shops|
    && st.sales[j].idStock == st.stocks[k].id
    && st.stocks[k].idBook == st.books[b].id
    && st.stocks[k].idShop == st.shops[h].id
    && st.books[b].idPublisher == st.publishers[a].id
  }

  /** Sale `j` joins to `row`. */
  ghost predicate Joined(st: Store, j: int, row: Row) {
    exists a, b, k, h :: JoinAt(st, j, a, b, k, h) &&
      row == Row(st.publishers[a].name, st.books[b].title, st.shops[h].name,
                 st.sales[j].price, st.sales[j].dateSale)
  }

  /** Sale `j` contributes a row to the report for `pattern`. */
  ghost predicate Reaches(st: Store, pattern: string, j: int) {
    exists row :: Joined(st, j, row) && Matches(row, pattern)
  }

  /** Resolving a sale follows real rows of the join. */
  lemma ResolveSound(st: Store, j: int)
    requires 0 <= j < |st.sales|
    ensures Resolve(st, st.sales[j]).Some? ==> Joined(st, j, Resolve(st, st.sales[j]).value)
  {
    var s := st.sales[j];
    if Resolve(st, s).Some? {
      var k := StockById(st, s.idStock).value;
      var b := BookById(st, st.stocks[k].idBook).value;
      var h := ShopById(st, st.stocks[k].idShop).value;
      var a := PublisherById(st, st.books[b].idPublisher).value;
      assert JoinAt(st, j, a, b, k, h);
    }
  }

  /** In a numbered store, a join at known rows is what resolving finds. */
  lemma JoinAtResolves(st: Store, j: int, a: int, b: int, k: int, h: int)
    requires Numbered(st) && JoinAt(st, j, a, b, k, h)
    ensures Resolve(st, st.sales[j])
         == Some(Row(st.publishers[a].name, st.books[b].title, st.shops[h].name,
                     st.sales[j].price, st.sales[j].dateSale))
  {
    StockByIdNumbered(st, st.sales[j].idStock);
    assert StockById(st, st.sales[j].idStock) == Some(k);
    BookByIdNumbered(st, st.stocks[k].idBook);
    assert BookById(st, st.stocks[k].idBook) == Some(b);
    ShopByIdNumbered(st, st.stocks[k].idShop);
    assert ShopById(st, st.stocks[k].idShop) == Some(h);
    PublisherByIdNumbered(st, st.books[b].idPublisher);
    assert PublisherById(st, st.books[b].idPublisher) == Some(a);
  }

  /** In a numbered store, resolving a sale finds exactly the join. */
  lemma ResolveIffJoined(st: Store, j: int, row: Row)
    requires Numbered(st) && 0 <= j < |st.sales|
    ensures Resolve(st, st.sales[j]) == Some(row) <==> Joined(st, j, row)
  {
    ResolveSound(st, j);
    if Joined(st, j, row) {
      var a, b, k, h :| JoinAt(st, j, a, b, k, h) &&
        row == Row(st.publishers[a].name, st.books[b].title, st.shops[h].name,
                   st.sales[j].price, st.sales[j].dateSale);
      JoinAtResolves(st, j, a, b, k, h);
    }
  }

  /** The sales of `st` whose joined row passes the filter, among the first `n`. */
  ghost function ReachingSales(st: Store, pattern: string, n: int): set<int> {
    set j | 0 <= j < n && j < |st.sales| && Reaches(st, pattern, j)
  }

  /** Sale `j` contributes a row exactly when it resolves to a matching row. */
  lemma ReachesIffResolves(st: Store, pattern: string, j: int)
    requires Numbered(st) && 0 <= j < |st.sales|
    ensures Reaches(st, pattern, j) <==>
            Resolve(st, st.sales[j]).Some? && Matches(Resolve(st, st.sales[j]).value, pattern)
  {
    if Resolve(st, st.sales[j]).Some? {
      ResolveSound(st, j);
    }
    if Reaches(st, pattern, j) {
      var row :| Joined(st, j, row) && Matches(row, pattern);
      ResolveIffJoined(st, j, row);
    }
  }

  /** A sale contributes `row` exactly when it resolves to it and it matches. */
  lemma RowOfContents(st: Store, pattern: string, s: Sale, row: Row)
    ensures row in RowOf(st, pattern, s) <==> Resolve(st, s) == Some(row) && Matches(row, pattern)
    ensures |RowOf(st, pattern, s)| == if Resolve(st, s).Some? && Matches(Resolve(st, s).value, pattern) then 1 else 0
  {
  }

  /** A sale that resolves contributes its row exactly when the row matches. */
  lemma RowOfResolved(st: Store, pattern: string, s: Sale, row: Row)
    requires Resolve(st, s) == Some(row)
    ensures RowOf(st, pattern, s) == if Matches(row, pattern) then [row] else []
  {
  }

  /** Splitting off the last of the first `n` sales. */
  lemma RowsForSplit(st: Store, pattern: string, n: int)
    requires 0 < n <= |st.sales|
    ensures RowsFor(st, pattern, st.sales[..n])
         == RowsFor(st, pattern, st.sales[..n - 1]) + RowOf(st, pattern, st.sales[n - 1])
  {
    var prefix := st.sales[..n];
    assert prefix[..n - 1] == st.sales[..n - 1];
  }

  /** Among the first `n` sales, the rows of the report are exactly the
      matching joined rows. */
  lemma {:induction false} RowsForPrefix(st: Store, pattern: string, n: int, row: Row)
    requires Numbered(st) && 0 <= n <= |st.sales|
    ensures row in RowsFor(st, pattern, st.sales[..n]) <==>
            exists j :: 0 <= j < n && Joined(st, j, row) && Matches(row, pattern)
  {
    if n > 0 {
      RowsForSplit(st, pattern, n);
      RowsForPrefix(st, pattern, n - 1, row);
      RowOfContents(st, pattern, st.sales[n - 1], row);
      ResolveIffJoined(st, n - 1, row);
      if row in RowsFor(st, pattern, st.sales[..n]) {
        if row !in RowsFor(st, pattern, st.sales[..n - 1]) {
          assert Joined(st, n - 1, row) && Matches(row, pattern);
        }
      }
      if exists j :: 0 <= j < n && Joined(st, j, row) && Matches(row, pattern) {
        var j :| 0 <= j < n && Joined(st, j, row) && Matches(row, pattern);
        if j == n - 1 {
          assert row in RowOf(st, pattern, st.sales[n - 1]);
        } else {
          assert row in RowsFor(st, pattern, st.sales[..n - 1]);
        }
      }
    }
  }

  /** Among the first `n` sales, the report has one row per reaching sale. */
  lemma {:induction false} RowsForPrefixCount(st: Store, pattern: string, n: int)
    requires Numbered(st) && 0 <= n <= |st.sales|
    ensures |RowsFor(st, pattern, st.sales[..n])| == |ReachingSales(st, pattern, n)|
  {
    if n == 0 {
      assert ReachingSales(st, pattern, n) == {};
    } else {
      RowsForSplit(st, pattern, n);
      RowsForPrefixCount(st, pattern, n - 1);
      ReachesIffResolves(st, pattern, n - 1);
      var any: Row :| true;
      RowOfContents(st, pattern, st.sales[n - 1], any);
      ReachingSalesStep(st, pattern, n);
    }
  }

  lemma ReachingSalesStep(st: Store, pattern: string, n: int)
    requires 0 < n <= |st.sales|
    ensures ReachingSales(st, pattern, n)
         == ReachingSales(st, pattern, n - 1) + (if Reaches(st, pattern, n - 1) then {n - 1} else {})
    ensures n - 1 !in ReachingSales(st, pattern, n - 1)
  {
  }

  /** A row is in the report exactly when some sale joins to it and its
      publisher name matches. */
  lemma GetPublisherDataRows(st: Store, pattern: string, row: Row)
    requires Numbered(st)
    ensures row in GetPublisherData(st, pattern) <==>
            exists j :: 0 <= j < |st.sales| && Joined(st, j, row) && Matches(row, pattern)
  {
    assert st.sales[..|st.sales|] == st.sales;
    RowsForPrefix(st, pattern, |st.sales|, row);
  }

  /** The report has exactly one row per sale that reaches a matching
      publisher: publishers, books and stocks without sales add nothing,
      and no sale is counted twice. */
  lemma GetPublisherDataCount(st: Store, pattern: string)
    requires Numbered(st)
    ensures |GetPublisherData(st, pattern)| == |ReachingSales(st, pattern, |st.sales|)|
  {
    assert st.sales[..|st.sales|] == st.sales;
    RowsForPrefixCount(st, pattern, |st.sales|);
  }

  /** The sales of `st`, among the first `n`, that join to `row` when `row` matches. */
  ghost function JoiningSales(st: Store, pattern: string, row: Row, n: int): set<int> {
    set j | 0 <= j < n && j < |st.sales| && Joined(st, j, row) && Matches(row, pattern)
  }

  lemma JoiningSalesStep(st: Store, pattern: string, row: Row, n: int)
    requires 0 < n <= |st.sales|
    ensures JoiningSales(st, pattern, row, n)
         == JoiningSales(st, pattern, row, n - 1)
            + (if Joined(st, n - 1, row) && Matches(row, pattern) then {n - 1} else {})
    ensures n - 1 !in JoiningSales(st, pattern, row, n - 1)
  {
  }

  /** How often one sale contributes `row`: once or not at all. */
  lemma RowOfCount(st: Store, pattern: string, s: Sale, row: Row)
    ensures multiset(RowOf(st, pattern, s))[row]
         == if Resolve(st, s) == Some(row) && Matches(row, pattern) then 1 else 0
  {
  }

  /** Among the first `n` sales, `row` occurs in the report once per sale
      that joins to it, when it matches. */
  lemma {:induction false} RowsForPrefixMultiplicity(st: Store, pattern: string, n: int, row: Row)
    requires Numbered(st) && 0 <= n <= |st.sales|
    ensures multiset(RowsFor(st, pattern, st.sales[..n]))[row] == |JoiningSales(st, pattern, row, n)|
  {
    if n == 0 {
      assert JoiningSales(st, pattern, row, n) == {};
    } else {
      RowsForPrefixMultiplicity(st, pattern, n - 1, row);
      RowsForSplit(st, pattern, n);
      MultisetConcatAt(RowsFor(st, pattern, st.sales[..n - 1]), RowOf(st, pattern, st.sales[n - 1]), row);
      RowOfCount(st, pattern, st.sales[n - 1], row);
      ResolveIffJoined(st, n - 1, row);
      JoiningSalesStep(st, pattern, row, n);
      if Joined(st, n - 1, row) && Matches(row, pattern) {
        CardinalityAdd(JoiningSales(st, pattern, row, n - 1), n - 1);
      }
    }
  }

  lemma MultisetConcatAt<T>(a: seq<T>, b: seq<T>, x: T)
    ensures multiset(a + b)[x] == multiset(a)[x] + multiset(b)[x]
  {
  }

  lemma CardinalityAdd(a: set<int>, x: int)
    requires x !in a
    ensures |a + {x}| == |a| + 1
  {
  }

  /** Each row occurs in the report exactly as often as there are sales that
      join to it, when its publisher name matches: the report is the
      filtered join as a multiset, whatever order the rows come in. */
  lemma GetPublisherDataMultiplicity(st: Store, pattern: string, row: Row)
    requires Numbered(st)
    ensures multiset(GetPublisherData(st, pattern))[row]
         == |set j | 0 <= j < |st.sales| && Joined(st, j, row) && Matches(row, pattern)|
  {
    assert st.sales[..|st.sales|] == st.sales;
    RowsForPrefixMultiplicity(st, pattern, |st.sales|, row);
    assert JoiningSales(st, pattern, row, |st.sales|)
        == set j | 0 <= j < |st.sales| && Joined(st, j, row) && Matches(row, pattern);
  }

  /** Every row of the report has a matching publisher name. */
  lemma {:induction false} RowsForMatch(st: Store, pattern: string, sales: seq<Sale>)
    ensures forall row :: row in RowsFor(st, pattern, sales) ==> Matches(row, pattern)
    decreases |sales|
  {
    if |sales| > 0 {
      RowsForMatch(st, pattern, sales[..|sales| - 1]);
    }
  }

  /** The pattern is not lower-cased: a pattern holding a character that
      lower-casing would change matches no lower-cased name, so the report
      is empty however many sales the store holds. */
  lemma GetPublisherDataUnfoldedPattern(st: Store, pattern: string, k: int)
    requires 0 <= k < |pattern| && !IsFolded(pattern[k])
    ensures GetPublisherData(st, pattern) == []
  {
    RowsForMatch(st, pattern, st.sales);
    var rows := GetPublisherData(st, pattern);
    if |rows| > 0 {
      var name := rows[0].publisherName;
      assert Matches(rows[0], pattern);
      ContainsChars(Lower(name), pattern);
      LowerIsFolded(name);
      assert false;
    }
  }

  /** Two stores agree on everything a sale of the first resolves through:
      the second may hold more rows and other stock counts. */
  ghost predicate LinksAgree(st: Store, st2: Store) {
    && |st.publishers| <= |st2.publishers|
    && |st.books| <= |st2.books|
    && |st.shops| <= |st2.shops|
    && |st.stocks| <= |st2.stocks|
    && st2.publishers[..|st.publishers|] == st.publishers
    && st2.books[..|st.books|] == st.books
    && st2.shops[..|st.shops|] == st.shops
    && (forall i :: 0 <= i < |st.stocks| ==>
          st2.stocks[i].idShop == st.stocks[i].idShop && st2.stocks[i].idBook == st.stocks[i].idBook)
  }

  lemma LinksAgreeAt(st: Store, st2: Store, k: int, b: int, h: int, a: int)
    requires LinksAgree(st, st2)
    requires 0 <= k < |st.stocks| && 0 <= b < |st.books| && 0 <= h < |st.shops| && 0 <= a < |st.publishers|
    ensures st2.stocks[k].idBook == st.stocks[k].idBook && st2.stocks[k].idShop == st.stocks[k].idShop
    ensures st2.books[b] == st.books[b] && st2.shops[h] == st.shops[h] && st2.publishers[a] == st.publishers[a]
  {
    assert st2.books[b] == st2.books[..|st.books|][b];
    assert st2.shops[h] == st2.shops[..|st.shops|][h];
    assert st2.publishers[a] == st2.publishers[..|st.publishers|][a];
  }

  lemma ResolveAgrees(st: Store, st2: Store, s: Sale)
    requires Numbered(st) && Numbered(st2) && Referential(st) && LinksAgree(st, st2)
    requires Names(|st.stocks|, s.idStock)
    ensures Resolve(st2, s) == Resolve(st, s)
    ensures Resolve(st, s).Some?
  {
    ReferentialLinked(st, s);
    RowAtAgrees(st, st2, s);
    ResolveNumbered(st, s);
    ResolveNumbered(st2, s);
  }

  lemma RowAtAgrees(st: Store, st2: Store, s: Sale)
    requires SaleLinked(st, s) && LinksAgree(st, st2)
    ensures SaleLinked(st2, s) && RowAt(st2, s) == RowAt(st, s)
  {
    var k := s.idStock - 1;
    var b := st.stocks[k].idBook - 1;
    var h := st.stocks[k].idShop - 1;
    var a := st.books[b].idPublisher - 1;
    LinksAgreeAt(st, st2, k, b, h, a);
  }

  lemma {:induction false} RowsForAgree(st: Store, st2: Store, pattern: string, sales: seq<Sale>)
    requires Numbered(st) && Numbered(st2) && Referential(st) && LinksAgree(st, st2)
    requires forall i :: 0 <= i < |sales| ==> Names(|st.stocks|, sales[i].idStock)
    ensures RowsFor(st2, pattern, sales) == RowsFor(st, pattern, sales)
    decreases |sales|
  {
    if |sales| > 0 {
      RowsForAgree(st, st2, pattern, sales[..|sales| - 1]);
      ResolveAgrees(st, st2, sales[|sales| - 1]);
    }
  }

  /** The empty pattern keeps every publisher: in a valid store every sale
      contributes one row. */
  lemma {:induction false} RowsForEmptyPattern(st: Store, sales: seq<Sale>)
    requires Valid(st)
    requires forall i :: 0 <= i < |sales| ==> Names(|st.stocks|, sales[i].idStock)
    ensures |RowsFor(st, "", sales)| == |sales|
    decreases |sales|
  {
    if |sales| > 0 {
      RowsForEmptyPattern(st, sales[..|sales| - 1]);
      ResolveAgrees(st, st, sales[|sales| - 1]);
      ContainsEmpty(Lower(Resolve(st, sales[|sales| - 1]).value.publisherName));
    }
  }

  lemma GetPublisherDataEmptyPattern(st: Store)
    requires Valid(st)
    ensures |GetPublisherData(st, "")| == |st.sales|
  {
    RowsForEmptyPattern(st, st.sales);
  }

  /** The sale's stock id, that stock's book and shop ids and that book's
      publisher id all lie within their tables. */
  predicate SaleLinked(st: Store, s: Sale) {
    && 1 <= s.idStock <= |st.stocks|
    && 1 <= st.stocks[s.idStock - 1].idBook <= |st.books|
    && 1 <= st.stocks[s.idStock - 1].idShop <= |st.shops|
    && 1 <= st.books[st.stocks[s.idStock - 1].idBook - 1].idPublisher <= |st.publishers|
  }

  lemma ReferentialLinked(st: Store, s: Sale)
    requires Referential(st) && Names(|st.stocks|, s.idStock)
    ensures SaleLinked(st, s)
  {
    var k := s.idStock - 1;
    assert Names(|st.books|, st.stocks[k].idBook) && Names(|st.shops|, st.stocks[k].idShop);
  }

  /** The row a linked sale joins to, reading each id `n` as row `n - 1`. */
  function RowAt(st: Store, s: Sale): Row
    requires SaleLinked(st, s)
  {
    var k := s.idStock - 1;
    var b := st.stocks[k].idBook - 1;
    var h := st.stocks[k].idShop - 1;
    var a := st.books[b].idPublisher - 1;
    Row(st.publishers[a].name, st.books[b].title, st.shops[h].name, s.price, s.dateSale)
  }

  /** In a numbered store a linked sale always resolves, to the rows its
      ids name by position. */
  lemma ResolveNumbered(st: Store, s: Sale)
    requires Numbered(st) && SaleLinked(st, s)
    ensures Resolve(st, s) == Some(RowAt(st, s))
  {
    var k := s.idStock - 1;
    var b := st.stocks[k].idBook - 1;
    var h := st.stocks[k].idShop - 1;
    var a := st.books[b].idPublisher - 1;
    StockByIdNumbered(st, k + 1);
    BookByIdNumbered(st, b + 1);
    ShopByIdNumbered(st, h + 1);
    PublisherByIdNumbered(st, a + 1);
    ResolveVia(st, s, k, b, h, a);
  }

  /** An accepted sale appends to the report exactly the row it joins to,
      when that row matches, and leaves the earlier rows as they were. */
  lemma AddSaleExtendsReport(st: Store, price: Price, date: Timestamp, idStock: Id, count: int, pattern: string)
    requires Valid(st)
    requires 1 <= idStock <= |st.stocks| && count <= st.stocks[idStock - 1].count
    ensures var row := RowAt(st, Sale(|st.sales| + 1, price, date, idStock, count));
            GetPublisherData(AddSale(st, price, date, idStock, count).store, pattern)
            == GetPublisherData(st, pattern) + (if Matches(row, pattern) then [row] else [])
  {
    var st2 := AddSale(st, price, date, idStock, count).store;
    var sold := Sale(|st.sales| + 1, price, date, idStock, count);
    AddSaleChangesOneStock(st, price, date, idStock, count);
    AddSaleKeepsValid(st, price, date, idStock, count);
    assert LinksAgree(st, st2);
    assert st2.sales[..|st2.sales| - 1] == st.sales;
    assert RowsFor(st2, pattern, st2.sales) == RowsFor(st2, pattern, st.sales) + RowOf(st2, pattern, sold);
    RowsForAgree(st, st2, pattern, st.sales);
    ResolveAgrees(st, st2, sold);
    ReferentialLinked(st, sold);
    ResolveNumbered(st, sold);
  }

  /** Inserting a publisher, book, shop or stock row adds no row to the
      report: every existing sale still joins to the same row, and the new
      row has no sale yet. */
  lemma CatalogueInsertKeepsReport(st: Store, st2: Store, pattern: string)
    requires Valid(st) && Numbered(st2) && LinksAgree(st, st2) && st2.sales == st.sales
    ensures GetPublisherData(st2, pattern) == GetPublisherData(st, pattern)
  {
    RowsForAgree(st, st2, pattern, st.sales);
  }

  lemma AddPublisherKeepsReport(st: Store, name: string, pattern: string)
    requires Valid(st)
    ensures GetPublisherData(AddPublisher(st, name).store, pattern) == GetPublisherData(st, pattern)
  {
    var st2 := AddPublisher(st, name).store;
    AddPublisherKeepsValid(st, name);
    assert st2.publishers[..|st.publishers|] == st.publishers;
    CatalogueInsertKeepsReport(st, st2, pattern);
  }

  /** Whatever publisher id the new book carries: no sale reaches it yet. */
  lemma AddBookKeepsReport(st: Store, title: string, idPublisher: Id, pattern: string)
    requires Valid(st)
    ensures GetPublisherData(AddBook(st, title, idPublisher).store, pattern) == GetPublisherData(st, pattern)
  {
    var st2 := AddBook(st, title, idPublisher).store;
    assert st2.books[..|st.books|] == st.books;
    CatalogueInsertKeepsReport(st, st2, pattern);
  }

  lemma AddShopKeepsReport(st: Store, name: string, pattern: string)
    requires Valid(st)
    ensures GetPublisherData(AddShop(st, name).store, pattern) == GetPublisherData(st, pattern)
  {
    var st2 := AddShop(st, name).store;
    AddShopKeepsValid(st, name);
    assert st2.shops[..|st.shops|] == st.shops;
    CatalogueInsertKeepsReport(st, st2, pattern);
  }

  /** Whatever ids and count the new stock row carries: the report reads no
      counts, and no existing sale names the new row. */
  lemma AddStockKeepsReport(st: Store, idShop: Id, idBook: Id, count: int, pattern: string)
    requires Valid(st)
    ensures GetPublisherData(AddStock(st, idShop, idBook, count).store, pattern) == GetPublisherData(st, pattern)
  {
    var st2 := AddStock(st, idShop, idBook, count).store;
    assert st2.publishers[..|st.publishers|] == st.publishers;
    assert st2.books[..|st.books|] == st.books;
    assert st2.shops[..|st.shops|] == st.shops;
    CatalogueInsertKeepsReport(st, st2, pattern);
  }
}

=== FILE: schema.dfy ===
/**
  The five tables of the catalogue and the store that holds them.

  Every table is a sequence of rows in insertion order. The primary key of
  every table is an autoincrement integer, so the row inserted into a table
  that already holds `n` rows receives id `n + 1`; `Numbered` states that
  this has been so for every row. Foreign keys are plain integer columns:
  nothing in the catalogue code checks them (the database does), so a store
  may hold a reference to a row that does not exist.
 */
module Schema {
  import opened Query

  /** A primary or foreign key value. */
  type Id = int

  /** A sale price. The `price` column of `ORM_HW.py` is a float that is only stored and
      returned, so any totally ordered value would do. */
  type Price = int

  /** A clock reading, stamped on a sale by the caller. */
  type Timestamp = int

  datatype Publisher = Publisher(id: Id, name: string)

  datatype Book = Book(id: Id, title: string, idPublisher: Id)

  datatype Shop = Shop(id: Id, name: string)

  /** How many copies of one book one shop holds. */
  datatype Stock = Stock(id: Id, idShop: Id, idBook: Id, count: int)

  datatype Sale = Sale(id: Id, price: Price, dateSale: Timestamp, idStock: Id, count: int)

  datatype Store = Store(
    publishers: seq<Publisher>,
    books: seq<Book>,
    shops: seq<Shop>,
    stocks: seq<Stock>,
    sales: seq<Sale>)

  /** The store right after the schema is dropped and created again. */
  const Empty: Store := Store([], [], [], [], [])

  /** Every row's id is its 1-based position in its table. */
  predicate Numbered(st: Store) {
    && (forall i :: 0 <= i < |st.publishers| ==> st.publishers[i].id == i + 1)
    && (forall i :: 0 <= i < |st.books| ==> st.books[i].id == i + 1)
    && (forall i :: 0 <= i < |st.shops| ==> st.shops[i].id == i + 1)
    && (forall i :: 0 <= i < |st.stocks| ==> st.stocks[i].id == i + 1)
    && (forall i :: 0 <= i < |st.sales| ==> st.sales[i].id == i + 1)
  }

  /** Position of the first row with a given primary key, one per table. */
  function PublisherById(st: Store, id: Id): Option<nat> {
    First(st.publishers, (p: Publisher) => p.id == id)
  }

  function BookById(st: Store, id: Id): Option<nat> {
    First(st.books, (b: Book) => b.id == id)
  }

  function ShopById(st: Store, id: Id): Option<nat> {
    First(st.shops, (h: Shop) => h.id == id)
  }

  function StockById(st: Store, id: Id): Option<nat> {
    First(st.stocks, (s: Stock) => s.id == id)
  }

  /** In a numbered store the row with id `id` sits at position `id - 1`,
      and an id outside `1..|table|` names no row; one lemma per table. */
  lemma PublisherByIdNumbered(st: Store, id: Id)
    requires Numbered(st)
    ensures PublisherById(st, id) == if 1 <= id <= |st.publishers| then Some(id - 1) else None
  {
    if 1 <= id <= |st.publishers| {
      FirstUnique(st.publishers, (p: Publisher) => p.id == id, id - 1);
    }
  }

  lemma BookByIdNumbered(st: Store, id: Id)
    requires Numbered(st)
    ensures BookById(st, id) == if 1 <= id <= |st.books| then Some(id - 1) else None
  {
    if 1 <= id <= |st.books| {
      FirstUnique(st.books, (b: Book) => b.id == id, id - 1);
    }
  }

  lemma ShopByIdNumbered(st: Store, id: Id)
    requires Numbered(st)
    ensures ShopById(st, id) == if 1 <= id <= |st.shops| then Some(id - 1) else None
  {
    if 1 <= id <= |st.shops| {
      FirstUnique(st.shops, (h: Shop) => h.id == id, id - 1);
    }
  }

  lemma StockByIdNumbered(st: Store, id: Id)
    requires Numbered(st)
    ensures StockById(st, id) == if 1 <= id <= |st.stocks| then Some(id - 1) else None
  {
    if 1 <= id <= |st.stocks| {
      FirstUnique(st.stocks, (s: Stock) => s.id == id, id - 1);
    }
  }
}

=== FILE: seed.dfy ===
/**
  Replaying a script of inserts against a store: the shape of the module's
  start-up code, which resets the schema and then calls the inserts one
  after another.
 */
module Seed {
  import opened Schema
  import opened Mutations
  import opened Invariants

  /** One insert of a script, tagged by the table it writes. */
  datatype Command =
    | NewPublisher(name: string)
    | NewBook(title: string, idPublisher: Id)
    | NewShop(name: string)
    | NewStock(idShop: Id, idBook: Id, count: int)
    | NewSale(price: Price, date: Timestamp, idStock: Id, count: int)

  function Apply(st: Store, c: Command): Step {
    match c
    case NewPublisher(name) => AddPublisher(st, name)
    case NewBook(title, idPublisher) => AddBook(st, title, idPublisher)
    case NewShop(name) => AddShop(st, name)
    case NewStock(idShop, idBook, count) => AddStock(st, idShop, idBook, count)
    case NewSale(price, date, idStock, count) => AddSale(st, price, date, idStock, count)
  }

  /** Runs the commands in order; a refused insert leaves the store as it
      was and the script goes on. */
  function Replay(st: Store, cmds: seq<Command>): Store
    decreases |cmds|
  {
    if |cmds| == 0 then st else Replay(Apply(st, cmds[0]).store, cmds[1..])
  }

  lemma {:induction false} ReplayAppend(st: Store, a: seq<Command>, b: seq<Command>)
    ensures Replay(st, a + b) == Replay(Replay(st, a), b)
    decreases |a|
  {
    if |a| > 0 {
      assert (a + b)[0] == a[0];
      assert (a + b)[1..] == a[1..] + b;
      ReplayAppend(Apply(st, a[0]).store, a[1..], b);
    } else {
      assert a + b == b;
    }
  }

  /** A command whose new row's foreign keys name existing rows and whose
      stock count is not negative: what the database and the seed data
      supply, and what the invariants need. */
  predicate Admissible(st: Store, c: Command) {
    match c
    case NewPublisher(_) => true
    case NewBook(_, idPublisher) => Names(|st.publishers|, idPublisher)
    case NewShop(_) => true
    case NewStock(idShop, idBook, count) =>
      Names(|st.shops|, idShop) && Names(|st.books|, idBook) && count >= 0
    case NewSale(_, _, _, _) => true
  }

  /** Every command of the script is admissible in the store it meets. */
  predicate AdmissibleRun(st: Store, cmds: seq<Command>)
    decreases |cmds|
  {
    |cmds| == 0 || (Admissible(st, cmds[0]) && AdmissibleRun(Apply(st, cmds[0]).store, cmds[1..]))
  }

  lemma ApplyKeepsValid(st: Store, c: Command)
    requires Valid(st) && Admissible(st, c)
    ensures Valid(Apply(st, c).store)
  {
    match c
    case NewPublisher(name) => AddPublisherKeepsValid(st, name);
    case NewBook(title, idPublisher) => AddBookKeepsValid(st, title, idPublisher);
    case NewShop(name) => AddShopKeepsValid(st, name);
    case NewStock(idShop, idBook, count) => AddStockKeepsValid(st, idShop, idBook, count);
    case NewSale(price, date, idStock, count) => AddSaleKeepsValid(st, price, date, idStock, count);
  }

  /** Replaying an admissible script keeps every invariant, so a script
      replayed on the reset schema yields a valid store. */
  lemma {:induction false} ReplayKeepsValid(st: Store, cmds: seq<Command>)
    requires Valid(st) && AdmissibleRun(st, cmds)
    ensures Valid(Replay(st, cmds))
    decreases |cmds|
  {
    if |cmds| > 0 {
      ApplyKeepsValid(st, cmds[0]);
      ReplayKeepsValid(Apply(st, cmds[0]).store, cmds[1..]);
    }
  }

  /** Replaying a script walks through any trace of states in which each
      state is what its command makes of the one before. */
  lemma {:induction false} ReplayTrace(cmds: seq<Command>, states: seq<Store>)
    requires |states| == |cmds| + 1
    requires forall i :: 0 <= i < |cmds| ==> Apply(states[i], cmds[i]).store == states[i + 1]
    ensures Replay(states[0], cmds) == states[|cmds|]
    decreases |cmds|
  {
    if |cmds| > 0 {
      ReplayTrace(cmds[1..], states[1..]);
    }
  }

  /** Every insert keeps ids equal to positions plus one, whatever its
      arguments: a new row always takes the next autoincrement value. */
  lemma ApplyKeepsNumbered(st: Store, c: Command)
    requires Numbered(st)
    ensures Numbered(Apply(st, c).store)
  {
    match c
    case NewPublisher(name) =>
    case NewBook(title, idPublisher) =>
    case NewShop(name) =>
    case NewStock(idShop, idBook, count) =>
    case NewSale(price, date, idStock, count) => AddSaleKeepsNumbered(st, price, date, idStock, count);
  }

  lemma AddSaleKeepsNumbered(st: Store, price: Price, date: Timestamp, idStock: Id, count: int)
    requires Numbered(st)
    ensures Numbered(AddSale(st, price, date, idStock, count).store)
  {
    if 1 <= idStock <= |st.stocks| && count <= st.stocks[idStock - 1].count {
      AddSaleChangesOneStock(st, price, date, idStock, count);
      var r := AddSale(st, price, date, idStock, count).store;
      assert r == st.(stocks := r.stocks, sales := r.sales);
      assert forall j :: 0 <= j < |r.stocks| ==> r.stocks[j].id == st.stocks[j].id;
    } else {
      AddSaleRefused(st, price, date, idStock, count);
    }
  }

  lemma {:induction false} ReplayKeepsNumbered(st: Store, cmds: seq<Command>)
    requires Numbered(st)
    ensures Numbered(Replay(st, cmds))
    decreases |cmds|
  {
    if |cmds| > 0 {
      ApplyKeepsNumbered(st, cmds[0]);
      ReplayKeepsNumbered(Apply(st, cmds[0]).store, cmds[1..]);
    }
  }
}

=== FILE: startup.dfy ===
/**
  The start-up script of the catalogue module: after the schema is reset it
  inserts two publishers, six books, three shops, ten stock rows and ten
  sales. The lemmas replay it and state the store and the report it leaves.
 */
module Startup {
  import opened Text
  import opened Query
  import opened Schema
  import opened Mutations
  import opened Invariants
  import opened Report
  import opened Seed

  const Pushkin: string := "Александр Сергеевич Пушкин"
  const Tolstoy: string := "Лев Николаевич Толстой"

  const Ruslan: string := "Руслан и Людмила"
  const Daughter: string := "Капитанская дочка"
  const Onegin: string := "Евгений Онегин"
  const AfterBall: string := "После бала"
  const WarPeace: string := "Война и Мир"
  const Karenina: string := "Анна Каренина"

  const Bukvoed: string := "Буквоед"
  const Labirint: string := "Лабиринт"
  const BookHouse: string := "Книжный дом"

  const PublisherScript: seq<Command> := [NewPublisher(Pushkin), NewPublisher(Tolstoy)]

  const BookScript: seq<Command> := [
    NewBook(Ruslan, 1), NewBook(Daughter, 1), NewBook(Onegin, 1),
    NewBook(AfterBall, 2), NewBook(WarPeace, 2), NewBook(Karenina, 2)
  ]

  const ShopScript: seq<Command> := [NewShop(Bukvoed), NewShop(Labirint), NewShop(BookHouse)]

  const StockScript: seq<Command> := [
    NewStock(1, 1, 10), NewStock(2, 1, 2), NewStock(1, 2, 7), NewStock(2, 2, 5), NewStock(3, 2, 1),
    NewStock(2, 3, 8), NewStock(3, 3, 2), NewStock(1, 4, 4), NewStock(2, 5, 7), NewStock(2, 6, 11)
  ]

  /** Prices and copy counts of the ten sales; the sale at position `i`
      draws on stock row `i + 1`. */
  const SalePrices: seq<Price> := [450, 380, 500, 490, 520, 420, 520, 620, 560, 550]
  const SaleCounts: seq<int> := [1, 1, 2, 2, 1, 2, 1, 1, 1, 3]

  /** The ten sales; `dates` are the clock readings at which they are
      recorded, which `ORM_HW.py` takes from the system clock. */
  function SaleScript(dates: seq<Timestamp>): seq<Command>
    requires |dates| == 10
  {
    seq(10, i requires 0 <= i < 10 => NewSale(SalePrices[i], dates[i], i + 1, SaleCounts[i]))
  }

  function StartupScript(dates: seq<Timestamp>): seq<Command>
    requires |dates| == 10
  {
    PublisherScript + BookScript + ShopScript + StockScript + SaleScript(dates)
  }

  const SeedPublishers: seq<Publisher> := [Publisher(1, Pushkin), Publisher(2, Tolstoy)]

  const SeedBooks: seq<Book> := [
    Book(1, Ruslan, 1), Book(2, Daughter, 1), Book(3, Onegin, 1),
    Book(4, AfterBall, 2), Book(5, WarPeace, 2), Book(6, Karenina, 2)
  ]

  const SeedShops: seq<Shop> := [Shop(1, Bukvoed), Shop(2, Labirint), Shop(3, BookHouse)]

  /** The stock rows as inserted, before any sale. */
  const SeedStocks: seq<Stock> := [
    Stock(1, 1, 1, 10), Stock(2, 2, 1, 2), Stock(3, 1, 2, 7), Stock(4, 2, 2, 5), Stock(5, 3, 2, 1),
    Stock(6, 2, 3, 8), Stock(7, 3, 3, 2), Stock(8, 1, 4, 4), Stock(9, 2, 5, 7), Stock(10, 2, 6, 11)
  ]

  const CatalogueStore: Store := Store(SeedPublishers, SeedBooks, SeedShops, SeedStocks, [])

  /** A name whose length no stored name has differs from every stored
      name after lower-casing, so the insert is accepted. */
  lemma AcceptPublisher(st: Store, name: string)
    requires forall i :: 0 <= i < |st.publishers| ==> |st.publishers[i].name| != |name|
    ensures Apply(st, NewPublisher(name)).store
         == st.(publishers := st.publishers + [Publisher(|st.publishers| + 1, name)])
  {
  }

  lemma AcceptBook(st: Store, title: string, idPublisher: Id)
    requires forall i :: 0 <= i < |st.books| ==> |st.books[i].title| != |title|
    ensures Apply(st, NewBook(title, idPublisher)).store
         == st.(books := st.books + [Book(|st.books| + 1, title, idPublisher)])
  {
  }

  lemma AcceptShop(st: Store, name: string)
    requires forall i :: 0 <= i < |st.shops| ==> |st.shops[i].name| != |name|
    ensures Apply(st, NewShop(name)).store
         == st.(shops := st.shops + [Shop(|st.shops| + 1, name)])
  {
  }

  lemma AcceptStock(st: Store, idShop: Id, idBook: Id, count: int)
    requires forall i :: 0 <= i < |st.stocks| ==>
               st.stocks[i].idShop != idShop || st.stocks[i].idBook != idBook
    ensures Apply(st, NewStock(idShop, idBook, count)).store
         == st.(stocks := st.stocks + [Stock(|st.stocks| + 1, idShop, idBook, count)])
  {
  }

  /** A sale from the only stock row carrying its id, which holds enough copies. */
  lemma AcceptSale(st: Store, price: Price, date: Timestamp, idStock: Id, count: int)
    requires 1 <= idStock <= |st.stocks| && st.stocks[idStock - 1].id == idStock
    requires forall j :: 0 <= j < |st.stocks| && j != idStock - 1 ==> st.stocks[j].id != idStock
    requires count <= st.stocks[idStock - 1].count
    ensures Apply(st, NewSale(price, date, idStock, count)).store
         == st.(stocks := st.stocks[idStock - 1 := st.stocks[idStock - 1].(count := st.stocks[idStock - 1].count - count)],
                sales := st.sales + [Sale(|st.sales| + 1, price, date, idStock, count)])
  {
    assert FirstStockWithId(st.stocks, idStock, idStock - 1);
  }

  /** Each catalogue script inserts its seed rows in order, and every seed
      row's id is its position plus one. */
  lemma SeedScripts()
    ensures |PublisherScript| == |SeedPublishers| && |BookScript| == |SeedBooks|
    ensures |ShopScript| == |SeedShops| && |StockScript| == |SeedStocks|
    ensures forall i :: 0 <= i < |SeedPublishers| ==>
              PublisherScript[i] == NewPublisher(SeedPublishers[i].name) && SeedPublishers[i].id == i + 1
    ensures forall i :: 0 <= i < |SeedBooks| ==>
              BookScript[i] == NewBook(SeedBooks[i].title, SeedBooks[i].idPublisher) && SeedBooks[i].id == i + 1
    ensures forall i :: 0 <= i < |SeedShops| ==>
              ShopScript[i] == NewShop(SeedShops[i].name) && SeedShops[i].id == i + 1
    ensures forall i :: 0 <= i < |SeedStocks| ==>
              && StockScript[i] == NewStock(SeedStocks[i].idShop, SeedStocks[i].idBook, SeedStocks[i].count)
              && SeedStocks[i].id == i + 1
  {
  }

  /** No two seed names of a table have the same length, and no two seed
      stock rows link the same shop and book. */
  lemma SeedRowsApart()
    ensures forall i, j :: 0 <= i < j < |SeedPublishers| ==> |SeedPublishers[i].name| != |SeedPublishers[j].name|
    ensures forall i, j :: 0 <= i < j < |SeedBooks| ==> |SeedBooks[i].title| != |SeedBooks[j].title|
    ensures forall i, j :: 0 <= i < j < |SeedShops| ==> |SeedShops[i].name| != |SeedShops[j].name|
    ensures StockPairsDistinct(SeedStocks)
  {
  }

  /** The store after the first `k` rows of the catalogue scripts, table by table. */
  function Published(k: nat): Store
    requires k <= |SeedPublishers|
  {
    Empty.(publishers := SeedPublishers[..k])
  }

  function Booked(k: nat): Store
    requires k <= |SeedBooks|
  {
    Empty.(publishers := SeedPublishers, books := SeedBooks[..k])
  }

  function Shopped(k: nat): Store
    requires k <= |SeedShops|
  {
    Empty.(publishers := SeedPublishers, books := SeedBooks, shops := SeedShops[..k])
  }

  function Stocked(k: nat): Store
    requires k <= |SeedStocks|
  {
    Empty.(publishers := SeedPublishers, books := SeedBooks, shops := SeedShops, stocks := SeedStocks[..k])
  }

  lemma PublisherStep(k: nat)
    requires k < |PublisherScript|
    ensures Apply(Published(k), PublisherScript[k]).store == Published(k + 1)
  {
    SeedScripts();
    SeedRowsApart();
    AcceptPublisher(Published(k), SeedPublishers[k].name);
    SliceStep(SeedPublishers, k);
  }

  lemma BookStep(k: nat)
    requires k < |BookScript|
    ensures Apply(Booked(k), BookScript[k]).store == Booked(k + 1)
  {
    SeedScripts();
    SeedRowsApart();
    AcceptBook(Booked(k), SeedBooks[k].title, SeedBooks[k].idPublisher);
    SliceStep(SeedBooks, k);
  }

  lemma ShopStep(k: nat)
    requires k < |ShopScript|
    ensures Apply(Shopped(k), ShopScript[k]).store == Shopped(k + 1)
  {
    SeedScripts();
    SeedRowsApart();
    AcceptShop(Shopped(k), SeedShops[k].name);
    SliceStep(SeedShops, k);
  }

  lemma StockStep(k: nat)
    requires k < |StockScript|
    ensures Apply(Stocked(k), StockScript[k]).store == Stocked(k + 1)
  {
    SeedScripts();
    SeedRowsApart();
    var r := SeedStocks[k];
    AcceptStock(Stocked(k), r.idShop, r.idBook, r.count);
    SliceStep(SeedStocks, k);
  }

  /** Both publishers are accepted, with ids 1 and 2. */
  lemma PublisherStage()
    ensures Replay(Empty, PublisherScript) == Empty.(publishers := SeedPublishers)
  {
    var states := seq(|PublisherScript| + 1, k requires 0 <= k <= |PublisherScript| => Published(k));
    forall i | 0 <= i < |PublisherScript|
      ensures Apply(states[i], PublisherScript[i]).store == states[i + 1]
    {
      PublisherStep(i);
    }
    ReplayTrace(PublisherScript, states);
    SliceEnds(SeedPublishers);
  }

  /** All six titles are accepted: no two agree after lower-casing. */
  lemma BookStage()
    ensures Replay(Empty.(publishers := SeedPublishers), BookScript)
         == Empty.(publishers := SeedPublishers, books := SeedBooks)
  {
    var states := seq(|BookScript| + 1, k requires 0 <= k <= |BookScript| => Booked(k));
    forall i | 0 <= i < |BookScript|
      ensures Apply(states[i], BookScript[i]).store == states[i + 1]
    {
      BookStep(i);
    }
    ReplayTrace(BookScript, states);
    SliceEnds(SeedBooks);
  }

  /** All three shops are accepted. */
  lemma ShopStage()
    ensures Replay(Empty.(publishers := SeedPublishers, books := SeedBooks), ShopScript)
         == Empty.(publishers := SeedPublishers, books := SeedBooks, shops := SeedShops)
  {
    var states := seq(|ShopScript| + 1, k requires 0 <= k <= |ShopScript| => Shopped(k));
    forall i | 0 <= i < |ShopScript|
      ensures Apply(states[i], ShopScript[i]).store == states[i + 1]
    {
      ShopStep(i);
    }
    ReplayTrace(ShopScript, states);
    SliceEnds(SeedShops);
  }

  /** All ten stock rows are accepted: no (shop, book) pair repeats. */
  lemma StockStage()
    ensures Replay(Empty.(publishers := SeedPublishers, books := SeedBooks, shops := SeedShops), StockScript)
         == CatalogueStore
  {
    var states := seq(|StockScript| + 1, k requires 0 <= k <= |StockScript| => Stocked(k));
    forall i | 0 <= i < |StockScript|
      ensures Apply(states[i], StockScript[i]).store == states[i + 1]
    {
      StockStep(i);
    }
    ReplayTrace(StockScript, states);
    SliceEnds(SeedStocks);
  }

  /** Extending a prefix by the next element gives the next prefix. */
  lemma SliceStep<T>(a: seq<T>, k: nat)
    requires k < |a|
    ensures a[..k] + [a[k]] == a[..k + 1]
  {
  }

  /** The empty prefix and the whole sequence. */
  lemma SliceEnds<T>(a: seq<T>)
    ensures a[..0] == [] && a[..|a|] == a
  {
  }

  /** Every stock row after its sale. */
  function DrawnStocks(): seq<Stock> {
    seq(10, i requires 0 <= i < 10 => SeedStocks[i].(count := SeedStocks[i].count - SaleCounts[i]))
  }

  /** A splice of `a` and `b` with its seam at either end is `b` or `a`. */
  lemma SpliceEnds<T>(a: seq<T>, b: seq<T>)
    requires |a| == |b|
    ensures a[..0] + b[0..] == b && a[..|a|] + b[|b|..] == a
  {
  }

  /** Replacing position `k` of a splice of `a` and `b` by `a[k]` moves the seam one place on. */
  lemma SpliceStep<T>(a: seq<T>, b: seq<T>, k: nat)
    requires |a| == |b| && k < |a|
    ensures (a[..k] + b[k..])[k := a[k]] == a[..k + 1] + b[k + 1..]
  {
  }

  /** The sale rows the ten sales append, in order. */
  function SaleRows(dates: seq<Timestamp>): seq<Sale>
    requires |dates| == 10
  {
    seq(10, i requires 0 <= i < 10 => Sale(i + 1, SalePrices[i], dates[i], i + 1, SaleCounts[i]))
  }

  /** The store the whole script leaves behind. */
  function StartupStore(dates: seq<Timestamp>): Store
    requires |dates| == 10
  {
    CatalogueStore.(stocks := DrawnStocks(), sales := SaleRows(dates))
  }

  /** The store after the first `k` sales are recorded. */
  function Sold(dates: seq<Timestamp>, k: nat): Store
    requires |dates| == 10 && k <= 10
  {
    CatalogueStore.(
      stocks := DrawnStocks()[..k] + SeedStocks[k..],
      sales := SaleRows(dates)[..k])
  }

  /** Stock row `i + 1` sits at position `i` and holds enough copies for its sale. */
  lemma SeedStocksCover()
    ensures |SeedStocks| == 10 && |DrawnStocks()| == 10
    ensures forall i :: 0 <= i < 10 ==> SeedStocks[i].id == i + 1 && SaleCounts[i] <= SeedStocks[i].count
    ensures forall i :: 0 <= i < 10 ==> DrawnStocks()[i].id == i + 1
  {
  }

  /** Before sale `k + 1`, stock row `k + 1` is still as inserted, every
      stock id is its position plus one, and `k` sales are recorded. */
  lemma SoldShape(dates: seq<Timestamp>, k: nat)
    requires |dates| == 10 && k < 10
    ensures var st := Sold(dates, k);
            && |st.stocks| == 10 && |st.sales| == k
            && (forall j :: 0 <= j < 10 ==> st.stocks[j].id == j + 1)
            && st.stocks[k] == SeedStocks[k] && SaleCounts[k] <= SeedStocks[k].count
  {
    SeedStocksCover();
  }

  /** Sale `k + 1` turns the state before it into the state after it. */
  lemma SoldStep(dates: seq<Timestamp>, k: nat)
    requires |dates| == 10 && k < 10
    ensures var st := Sold(dates, k);
            && st.stocks[k := st.stocks[k].(count := st.stocks[k].count - SaleCounts[k])] == Sold(dates, k + 1).stocks
            && st.sales + [Sale(k + 1, SalePrices[k], dates[k], k + 1, SaleCounts[k])] == Sold(dates, k + 1).sales
  {
    SoldShape(dates, k);
    SliceStep(SaleRows(dates), k);
    SpliceStep(DrawnStocks(), SeedStocks, k);
  }

  lemma SaleStep(dates: seq<Timestamp>, k: nat)
    requires |dates| == 10 && k < 10
    ensures Apply(Sold(dates, k), SaleScript(dates)[k]).store == Sold(dates, k + 1)
  {
    var st, st2 := Sold(dates, k), Sold(dates, k + 1);
    assert SaleScript(dates)[k] == NewSale(SalePrices[k], dates[k], k + 1, SaleCounts[k]);
    SoldShape(dates, k);
    AcceptSale(st, SalePrices[k], dates[k], k + 1, SaleCounts[k]);
    SoldStep(dates, k);
    assert st2 == st.(stocks := st2.stocks, sales := st2.sales);
  }

  /** All ten sales are accepted: every stock row holds enough copies. */
  lemma SaleStage(dates: seq<Timestamp>)
    requires |dates| == 10
    ensures Replay(CatalogueStore, SaleScript(dates)) == StartupStore(dates)
  {
    var cmds := SaleScript(dates);
    var states := seq(11, k requires 0 <= k <= 10 => Sold(dates, k));
    forall i | 0 <= i < |cmds|
      ensures Apply(states[i], cmds[i]).store == states[i + 1]
    {
      SaleStep(dates, i);
    }
    ReplayTrace(cmds, states);
    SpliceEnds(DrawnStocks(), SeedStocks);
    SliceEnds(SaleRows(dates));
  }

  /** Replaying the whole start-up script on the reset schema leaves
      exactly the catalogue and the ten sales: every insert is accepted. */
  lemma StartupReplay(dates: seq<Timestamp>)
    requires |dates| == 10
    ensures Replay(Empty, StartupScript(dates)) == StartupStore(dates)
  {
    var p, b, h, k, s := PublisherScript, BookScript, ShopScript, StockScript, SaleScript(dates);
    assert StartupScript(dates) == (((p + b) + h) + k) + s;
    ReplayAppend(Empty, (((p + b) + h) + k), s);
    ReplayAppend(Empty, ((p + b) + h), k);
    ReplayAppend(Empty, (p + b), h);
    ReplayAppend(Empty, p, b);
    PublisherStage();
    BookStage();
    ShopStage();
    StockStage();
    SaleStage(dates);
  }

  /** No two seed names of a table have the same length, so none agree
      after lower-casing. */
  lemma SeedNamesDistinct()
    ensures PublisherNamesDistinct(SeedPublishers)
    ensures BookTitlesDistinct(SeedBooks)
    ensures ShopNamesDistinct(SeedShops)
  {
    SeedRowsApart();
  }

  lemma SeedStocksDistinct()
    ensures StockPairsDistinct(SeedStocks) && StockPairsDistinct(DrawnStocks())
    ensures CountsNonNegative(DrawnStocks())
  {
    SeedRowsApart();
    assert forall i :: 0 <= i < 10 ==>
      DrawnStocks()[i].idShop == SeedStocks[i].idShop && DrawnStocks()[i].idBook == SeedStocks[i].idBook;
  }

  /** The store the start-up script leaves satisfies every invariant. */
  lemma StartupValid(dates: seq<Timestamp>)
    requires |dates| == 10
    ensures Valid(StartupStore(dates))
  {
    SeedNamesDistinct();
    SeedStocksDistinct();
    StartupLinked(dates);
  }

  /** Ids are positions and every foreign key of the start-up store names an existing row. */
  lemma StartupLinked(dates: seq<Timestamp>)
    requires |dates| == 10
    ensures Numbered(StartupStore(dates)) && Referential(StartupStore(dates))
  {
    SeedStocksCover();
    assert forall i :: 0 <= i < 10 ==> SaleRows(dates)[i].id == i + 1 && SaleRows(dates)[i].idStock == i + 1;
    assert forall i :: 0 <= i < 10 ==> Names(3, DrawnStocks()[i].idShop) && Names(6, DrawnStocks()[i].idBook);
  }

  /** Stock 1 is left with 9 copies, stock 5 with none; the counts of all
      ten rows after the sales. */
  lemma StartupCounts(dates: seq<Timestamp>)
    requires |dates| == 10
    ensures var st := StartupStore(dates);
            && |st.publishers| == 2 && |st.books| == 6 && |st.shops| == 3
            && |st.stocks| == 10 && |st.sales| == 10
            && st.stocks[0].count == 9 && st.stocks[4].count == 0
            && seq(10, i requires 0 <= i < 10 => st.stocks[i].count) == [9, 1, 5, 3, 0, 6, 1, 3, 6, 8]
  {
  }

  /** Lower-cased, Pushkin's name contains "пушкин" (at offset 20);
      Tolstoy's does not even contain the letter "п". */
  lemma SeedPublishersMatch()
    ensures Contains(Lower(Pushkin), "пушкин")
    ensures !Contains(Lower(Tolstoy), "пушкин")
  {
    assert Lower(Pushkin)[20..26] == "пушкин";
    ContainsAt(Lower(Pushkin), "пушкин", 20);
    assert Lower(Tolstoy) == "лев николаевич толстой";
    assert 'п' !in Lower(Tolstoy) && "пушкин"[0] == 'п';
    if Contains(Lower(Tolstoy), "пушкин") {
      ContainsChars(Lower(Tolstoy), "пушкин");
    }
  }

  /** The rows the ten sales of the start-up store join to, in sale order:
      seven sales of Pushkin's books, then three of Tolstoy's. */
  function StartupRows(dates: seq<Timestamp>): seq<Row>
    requires |dates| == 10
  {
    [Row(Pushkin, Ruslan, Bukvoed, 450, dates[0]),
     Row(Pushkin, Ruslan, Labirint, 380, dates[1]),
     Row(Pushkin, Daughter, Bukvoed, 500, dates[2]),
     Row(Pushkin, Daughter, Labirint, 490, dates[3]),
     Row(Pushkin, Daughter, BookHouse, 520, dates[4]),
     Row(Pushkin, Onegin, Labirint, 420, dates[5]),
     Row(Pushkin, Onegin, BookHouse, 520, dates[6]),
     Row(Tolstoy, AfterBall, Bukvoed, 620, dates[7]),
     Row(Tolstoy, WarPeace, Labirint, 560, dates[8]),
     Row(Tolstoy, Karenina, Labirint, 550, dates[9])]
  }

  /** The row sale `i + 1` joins to, read off the seed tables by position. */
  function SeedJoin(dates: seq<Timestamp>, i: nat): Row
    requires |dates| == 10 && i < 10
  {
    var r := SeedStocks[i];
    var b := SeedBooks[r.idBook - 1];
    Row(SeedPublishers[b.idPublisher - 1].name, b.title, SeedShops[r.idShop - 1].name, SalePrices[i], dates[i])
  }

  lemma SeedJoinRows(dates: seq<Timestamp>)
    requires |dates| == 10
    ensures forall i :: 0 <= i < 10 ==> SeedJoin(dates, i) == StartupRows(dates)[i]
  {
  }

  /** Of the ten joined rows, the first seven name Pushkin and match "пушкин". */
  lemma StartupRowsMatch(dates: seq<Timestamp>, i: nat)
    requires |dates| == 10 && i < 10
    ensures Matches(StartupRows(dates)[i], "пушкин") <==> i < 7
  {
    SeedPublishersMatch();
    assert StartupRows(dates)[i].publisherName == if i < 7 then Pushkin else Tolstoy;
  }

  /** Sale `i + 1` joins to row `i` of `StartupRows`. */
  lemma StartupResolve(dates: seq<Timestamp>, i: nat)
    requires |dates| == 10 && i < 10
    ensures Resolve(StartupStore(dates), StartupStore(dates).sales[i]) == Some(StartupRows(dates)[i])
  {
    var st := StartupStore(dates);
    StartupLinked(dates);
    SeedStocksCover();
    var s := st.sales[i];
    assert s == SaleRows(dates)[i] && s.idStock == i + 1;
    ReferentialLinked(st, s);
    ResolveNumbered(st, s);
    assert st.stocks[i].idBook == SeedStocks[i].idBook && st.stocks[i].idShop == SeedStocks[i].idShop;
    assert RowAt(st, s) == SeedJoin(dates, i);
    SeedJoinRows(dates);
  }

  /** The report the start-up store gives for the pattern "пушкин": the
      seven sales of Pushkin's books, in sale order. */
  function PushkinReport(dates: seq<Timestamp>): seq<Row>
    requires |dates| == 10
  {
    StartupRows(dates)[..7]
  }

  /** Each sale's contribution to the "пушкин" report: sales 1 to 7 draw on
      Pushkin's books and give one row each, sales 8 to 10 on Tolstoy's and
      give none. */
  lemma StartupRowOf(dates: seq<Timestamp>, i: nat)
    requires |dates| == 10 && i < 10
    ensures var st := StartupStore(dates);
            RowOf(st, "пушкин", st.sales[i]) == if i < 7 then [StartupRows(dates)[i]] else []
  {
    var st := StartupStore(dates);
    StartupResolve(dates, i);
    RowOfResolved(st, "пушкин", st.sales[i], StartupRows(dates)[i]);
    StartupRowsMatch(dates, i);
  }

  lemma {:induction false} StartupReportPrefix(dates: seq<Timestamp>, n: nat)
    requires |dates| == 10 && n <= 10
    ensures var st := StartupStore(dates);
            RowsFor(st, "пушкин", st.sales[..n]) == StartupRows(dates)[..if n < 7 then n else 7]
  {
    var st := StartupStore(dates);
    if n == 0 {
      assert st.sales[..0] == [];
    } else {
      StartupReportPrefix(dates, n - 1);
      RowsForSplit(st, "пушкин", n);
      StartupRowOf(dates, n - 1);
      if n <= 7 {
        SliceStep(StartupRows(dates), n - 1);
      }
    }
  }

  /** Searching the start-up store for "пушкин" gives exactly the seven
      rows of Pushkin's sales. */
  lemma StartupReport(dates: seq<Timestamp>)
    requires |dates| == 10
    ensures GetPublisherData(StartupStore(dates), "пушкин") == PushkinReport(dates)
    ensures |GetPublisherData(StartupStore(dates), "пушкин")| == 7
  {
    var st := StartupStore(dates);
    StartupReportPrefix(dates, 10);
    assert st.sales[..10] == st.sales;
  }

  /** The capitalised pattern "Пушкин" finds nothing: the stored name is
      lower-cased before the comparison but the pattern is not. */
  lemma StartupReportCapitalised(dates: seq<Timestamp>)
    requires |dates| == 10
    ensures GetPublisherData(StartupStore(dates), "Пушкин") == []
  {
    assert !IsFolded("Пушкин"[0]);
    GetPublisherDataUnfoldedPattern(StartupStore(dates), "Пушкин", 0);
  }
}

=== FILE: text.dfy ===
/**
  Case folding and substring search on names and titles.

  The catalogue compares names after lower-casing them (`str.lower()` on the
  Python side, `lower()` on the database side) and the report keeps
  publishers whose lower-cased name contains the search pattern (a
  `LIKE '%pattern%'` filter). Both sides are modelled by the one function
  `Lower`, so that the two lower-casings always agree.
 */
module Text {

  /** The case table of this model: ASCII capitals and the Cyrillic capitals
      U+0400..U+042F map to their small letters; every other character is
      its own lower case. */
  function LowerChar(c: char): char {
    if 'A' <= c <= 'Z' then (c as int + 32) as char
    else if '\U{0410}' <= c <= '\U{042F}' then (c as int + 32) as char
    else if '\U{0400}' <= c <= '\U{040F}' then (c as int + 80) as char
    else c
  }

  /** Lower-casing of a whole string, character by character. */
  function Lower(s: string): string {
    seq(|s|, i requires 0 <= i < |s| => LowerChar(s[i]))
  }

  /** A character that lower-casing leaves alone. */
  predicate IsFolded(c: char) {
    LowerChar(c) == c
  }

  lemma LowerCharIsFolded(c: char)
    ensures IsFolded(LowerChar(c))
  {
  }

  /** Every character of a lower-cased string is already folded, so
      lower-casing twice is lower-casing once. */
  lemma LowerIsFolded(s: string)
    ensures forall k :: 0 <= k < |Lower(s)| ==> IsFolded(Lower(s)[k])
    ensures Lower(Lower(s)) == Lower(s)
  {
    forall k | 0 <= k < |s|
      ensures IsFolded(Lower(s)[k])
    {
      LowerCharIsFolded(s[k]);
    }
  }

  predicate IsPrefix(p: string, s: string) {
    |p| <= |s| && s[..|p|] == p
  }

  /** `p` occurs in `s` (the `%`/`_` wildcards of `LIKE` are not modelled):
      `p` is a prefix of `s` or of one of its suffixes. */
  predicate Contains(s: string, p: string)
    decreases |s|
  {
    IsPrefix(p, s) || (|s| > 0 && Contains(s[1..], p))
  }

  /** Reference definition of an occurrence: `p` starts at position `i` of `s`. */
  ghost predicate OccursAt(s: string, p: string, i: int) {
    0 <= i && i + |p| <= |s| && s[i..i + |p|] == p
  }

  /** The search is exactly "some position of `s` starts an occurrence of `p`". */
  lemma {:induction false} ContainsIffOccurs(s: string, p: string)
    ensures Contains(s, p) <==> exists i :: OccursAt(s, p, i)
    decreases |s|
  {
    if IsPrefix(p, s) {
      assert OccursAt(s, p, 0);
    } else if |s| == 0 {
    } else {
      ContainsIffOccurs(s[1..], p);
      if exists i :: OccursAt(s[1..], p, i) {
        var i :| OccursAt(s[1..], p, i);
        assert s[1..][i..i + |p|] == s[i + 1..i + 1 + |p|];
        assert OccursAt(s, p, i + 1);
      }
      if exists i :: OccursAt(s, p, i) {
        var i :| OccursAt(s, p, i);
        assert s[1..][i - 1..i - 1 + |p|] == s[i..i + |p|];
        assert OccursAt(s[1..], p, i - 1);
      }
    }
  }

  /** An occurrence at a known position witnesses the search. */
  lemma ContainsAt(s: string, p: string, i: int)
    requires OccursAt(s, p, i)
    ensures Contains(s, p)
  {
    ContainsIffOccurs(s, p);
  }

  /** The empty pattern is found in every string. */
  lemma ContainsEmpty(s: string)
    ensures Contains(s, "")
  {
    assert OccursAt(s, "", 0);
    ContainsIffOccurs(s, "");
  }

  /** Every character of a pattern that is found in `s` is a character of `s`. */
  lemma {:induction false} ContainsChars(s: string, p: string)
    requires Contains(s, p)
    ensures forall k :: 0 <= k < |p| ==> p[k] in s
    decreases |s|
  {
    if IsPrefix(p, s) {
      forall k | 0 <= k < |p|
        ensures p[k] in s
      {
        assert s[k] == s[..|p|][k];
      }
    } else {
      ContainsChars(s[1..], p);
      forall k | 0 <= k < |p|
        ensures p[k] in s
      {
        var j :| 0 <= j < |s[1..]| && s[1..][j] == p[k];
        assert s[j + 1] == p[k];
      }
    }
  }
}
